=== FILE: README.md ===
# Habit challenge — a Dafny model of the challenge and task lifecycle

This project models the core of a habit-challenge application. A user creates a
challenge: a duration, a start date, a mode (solo, one-on-one or multiplayer) and
one to seven habits, each with a requirement such as "8 glasses". Other users
join the challenge, within the mode's capacity. Each day a batch creates one task
per participant and habit; the database's unique index on (challenge, user,
habit, day) makes that batch idempotent. Completing a task is a one-way flag
followed by a points credit to its owner. On the frontend, the wizard keeps a
selection of habits keyed by habit id, and the summary page renders requirements
and habit colours from a constant catalog.

The backend is modelled as a sequential state machine over three stores:
- challenges: a sequence with the next free id;
- tasks: a sequence whose positions are the task ids;
- points: a map from user to integer.

Every service call is a pure function from a state to the next state and an
outcome. Dates are integer milliseconds; the day of an instant is its Euclidean
quotient by 86 400 000 (`Clock`). Database failures are parameters: `fault` is
a failure the bulk insert meets besides its own duplicate keys. The unordered
insert writes every row that does not clash and then reports 11000 itself, which
the service swallows; so a `fault` carrying 11000 adds nothing to that. Any other
code aborts the batch with the store unchanged and surfaces as `DatabaseError`
with that code (`TaskRepository.Aborts`).

None of `participantIds`, `endDate` and the owner `userId` is declared on the
challenge schema, but the service and repository read all three. The model gives
`Challenge` all three fields explicitly. `create` sets none of them, so a new
challenge has no participants, no end date and no owner. Because the active
filter compares today with an absent end date, a challenge created through
`create` is never active, and the daily batch never picks it up
(`ChallengeRepository.CreatedNeverActive`). Because `delete` matches the owner
as well as the id, no user can delete a challenge created through `create`
(`ChallengeRepository.CreatedNeverDeleted`). Every other statement about the
batch and about deletion is made for arbitrary stored challenges, so it also
covers challenges whose end date or owner is set by other means.

Modules follow the source files:

| module | source |
|---|---|
| `Clock` | date-fns `startOfDay` / `endOfDay` on a fixed time zone |
| `Failures` | the `BadRequestException`s the services throw and the database error codes |
| `ChallengeSchema` | backend/src/modules/challenge/schema/challenge.schema.ts |
| `CreateChallengeDto` | backend/src/modules/challenge/dto/*.ts |
| `ChallengeRepository` | backend/src/modules/challenge/schema/challenge.repository.ts |
| `TaskSchema` | backend/src/modules/task/schema/task.schema.ts |
| `TaskRepository` | backend/src/modules/task/schema/task.repository.ts |
| `UserPoints` | the points credit `incrementPoints` |
| `TaskService` | backend/src/modules/task/task.service.ts |
| `ChallengeService` | backend/src/modules/challenge/challenge.service.ts |
| `TasksScheduler` | backend/src/modules/task/schedulers/task.schedular.ts |
| `Decimal` | JavaScript's decimal rendering of integers in template strings |
| `HabitCatalog` | frontend/lib/constants.ts |
| `HabitSelection` | frontend/app/challenge/create/page.tsx |
| `TaskSummary` | frontend/app/task-summary/page.tsx |

## Model

| member | source | states |
|---|---|---|
| Clock.StartOfDay | backend/src/modules/task/task.service.ts:19 | The start of the day lies at or before the instant, less than a day before it, and on the same day. |
| Clock.EndOfDay | backend/src/modules/task/schema/task.repository.ts:19 | The end of the day is at or after the instant and is the last millisecond of that day. |
| Clock.DayWindow | backend/src/modules/task/schema/task.repository.ts:18-24 | An instant lies in [startOfDay(d), endOfDay(d)], both ends inclusive, exactly when it falls on the same day as d. |
| ChallengeSchema.ParseMode | backend/src/modules/challenge/schema/challenge.schema.ts:15-20 | A mode string is accepted exactly when it is the name of one of the three enum values, and it parses to that value. |
| ChallengeSchema.ModeNameRoundTrip | backend/src/modules/challenge/schema/challenge.schema.ts:15-20 | Every mode's name parses back to the same mode. |
| CreateChallengeDto.Validate | backend/src/modules/challenge/dto/create-challenge.dto.ts:15-32 | Each violation is reported if and only if its rule fails: duration is not an integer or is below 1; startDate is not ISO; mode is not in the enum; fewer than 1 or more than 7 habits; or, per habit index, an id or requirement type not in its enum, or a value that is not an integer or is below 1. |
| CreateChallengeDto.FieldViolations | backend/src/modules/challenge/dto/create-challenge.dto.ts:16-28 | The top-level rules: integer duration of at least 1, ISO start date, mode in the enum, and between 1 and 7 habits, each reported if and only if it fails. |
| CreateChallengeDto.EnumViolations | backend/src/modules/challenge/dto/challenge-habit.dto.ts:6-13 | A habit index is reported for its id (the habit DTO's enum rule), or for its requirement type (the enum rule at lines 5-6 of requirement.dto.ts), exactly when that value is outside its enum. |
| CreateChallengeDto.ValueViolations | backend/src/modules/challenge/dto/requirement.dto.ts:4-11 | A habit index is reported for its requirement value exactly when the value is not an integer, or is below 1. |
| CreateChallengeDto.AcceptedMeans | backend/src/modules/challenge/dto/create-challenge.dto.ts:15-32 | An accepted input satisfies every rule, including each nested habit's rules. |
| CreateChallengeDto.AcceptedIsAdmitted | backend/src/modules/challenge/schema/challenge.schema.ts:7-48 | Whatever the input validator accepts, the document schema also admits. |
| CreateChallengeDto.AdmittedNotAccepted | backend/src/modules/challenge/dto/create-challenge.dto.ts:26-28 | The schema is strictly weaker: some document it admits has eight habits, which the validator refuses. |
| ChallengeRepository.FindById | backend/src/modules/challenge/schema/challenge.repository.ts:27-29 | Lookup returns a stored challenge with that id, and returns nothing exactly when no stored challenge has it. |
| ChallengeRepository.FindByIdUnique | backend/src/modules/challenge/schema/challenge.repository.ts:27-29 | When ids are unique, looking up a stored challenge's id returns that challenge. |
| ChallengeRepository.Create | backend/src/modules/challenge/schema/challenge.repository.ts:15-25 | Save fails exactly when the schema refuses the document. On success, duration, habits and mode are copied unchanged; startDate is the parsed input date; the record gets an id no stored challenge has, no participants and no end date; it is appended; and the store stays valid. |
| ChallengeRepository.Save | backend/src/modules/challenge/challenge.service.ts:74-75 | Saving a document replaces the record with its id in place and leaves every other record as it was. |
| ChallengeRepository.SaveThenFind | backend/src/modules/challenge/challenge.service.ts:74-75 | After saving, lookup by the saved id returns the saved document. |
| ChallengeRepository.SaveKeepsOthers | backend/src/modules/challenge/challenge.service.ts:74-75 | Saving one document does not change the lookup of any other id. |
| ChallengeRepository.Delete | backend/src/modules/challenge/schema/challenge.repository.ts:48-53 | Only a record matching both the id and the owner is removed, and at most one record is removed. With no match, the store is unchanged. |
| ChallengeRepository.DeleteRemovesId | backend/src/modules/challenge/schema/challenge.repository.ts:48-53 | With unique ids, a matching delete leaves no record with that id, and ids stay unique. |
| ChallengeRepository.FindActive | backend/src/modules/challenge/schema/challenge.repository.ts:55-59 | A challenge is returned exactly when it is stored, starts at or before today, and has an end date at or after today; both ends are inclusive. |
| ChallengeRepository.FindActiveAppend | backend/src/modules/challenge/schema/challenge.repository.ts:55-59 | The filter keeps the store's order: filtering a concatenation is the concatenation of the filtered parts. |
| ChallengeRepository.CreatedNeverActive | backend/src/modules/challenge/schema/challenge.repository.ts:15-25 | A challenge that `create` produces carries no end date, so the active filter never returns it. |
| ChallengeRepository.CreatedNeverDeleted | backend/src/modules/challenge/schema/challenge.repository.ts:48-53 | A challenge that `create` produces carries no owner, so `delete` by any user leaves it in the store. |
| TaskSchema.NewTask | backend/src/modules/task/schema/task.schema.ts:10-30 | A new task carries the given key fields and points, and takes the `isCompleted: false` default with no `completedAt`; so it already satisfies the stamping invariant (completed exactly when a completion time is set) that completion maintains. |
| TaskSchema.UniqueMeansOnce | backend/src/modules/task/schema/task.schema.ts:34-37 | Under the unique index, a key that is present occurs in exactly one row. |
| TaskSchema.KeysOfAppend | backend/src/modules/task/schema/task.schema.ts:34-37 | The key set of a concatenation is the union of the key sets. |
| TaskRepository.InsertOneKeys | backend/src/modules/task/schema/task.repository.ts:13-15 | One row of the unordered insert keeps every stored row as a prefix, leaves its key indexed whether it was written or refused as a duplicate, adds no other key, and keeps the index unique. |
| TaskRepository.InsertAll | backend/src/modules/task/schema/task.repository.ts:13-15 | An unordered bulk insert keeps the existing rows as a prefix, and the keys afterwards are the old keys plus the batch's keys. It keeps the index unique, and it adds only rows from the batch. |
| TaskRepository.NonConflictingInserted | backend/src/modules/task/schema/task.repository.ts:13-15 | A batch row is inserted whenever its key clashes neither with an existing row nor with an earlier row of the batch, whatever happens to other rows. |
| TaskRepository.InsertAllPresent | backend/src/modules/task/schema/task.repository.ts:13-15 | A batch whose keys are all indexed already changes nothing. |
| TaskRepository.InsertAllIdempotent | backend/src/modules/task/schema/task.repository.ts:13-15 | Inserting the same batch twice gives the same store as inserting it once. |
| TaskRepository.CreateMany | backend/src/modules/task/schema/task.repository.ts:13-15 | Unless the fault aborts, every non-clashing row is written and the write reports the duplicate-key code exactly when some batch row was refused. An aborting fault (any code but 11000) leaves the store unchanged and reports that code. |
| TaskRepository.CleanBatchHasNoConflicts | backend/src/modules/task/schema/task.repository.ts:13-15 | Every batch row is inserted exactly when no batch row conflicts. |
| TaskRepository.FindByIdStable | backend/src/modules/task/schema/task.repository.ts:27-29 | Ids are stable: once the collection has only grown, every earlier id still finds the same task. |
| TaskRepository.InsertKeepsIds | backend/src/modules/task/schema/task.repository.ts:13-29 | After a bulk insert, every previously stored task is found under its old id, unchanged. |
| TaskRepository.MarkCompleteThenFind | backend/src/modules/task/schema/task.repository.ts:27-37 | The document `markComplete` returns (`new: true`) is exactly what `findById` finds under that id afterwards, and every other id finds what it found before. |
| TaskRepository.MarkComplete | backend/src/modules/task/schema/task.repository.ts:31-37 | The named task becomes completed with completedAt set to now. Every other field and every other task is unchanged. A missing id changes nothing and returns nothing. |
| TaskRepository.MarkCompleteKeepsKeys | backend/src/modules/task/schema/task.repository.ts:31-37 | Completing a task changes no key, so the key set and its uniqueness are preserved. |
| TaskRepository.FindByUserAndDate | backend/src/modules/task/schema/task.repository.ts:17-25 | A task id is returned exactly when it belongs to the user and its date falls in the day of the given date; ids come back in store order. |
| UserPoints.Increment | backend/src/modules/task/task.service.ts:50-53 | Only the given user's points change, and they change by exactly the amount. |
| TaskService.Candidates | backend/src/modules/task/task.service.ts:21-30 | There are exactly participants × habits candidates, and each is a fresh, incomplete, one-point row for a participant and a habit, dated to the start of the day. |
| TaskService.CandidateKeys | backend/src/modules/task/task.service.ts:21-30 | The candidates' keys are exactly the (challenge, participant, habit, day) tuples. |
| TaskService.CandidatesLayout | backend/src/modules/task/task.service.ts:21-30 | The candidate at position i·|habits|+j is the task of participant i for habit j, in `flatMap` order. |
| TaskService.GenerateTasks | backend/src/modules/task/task.service.ts:14-36 | Generation fails exactly on a fault other than the duplicate-key code, and the error carries that code. Existing rows are never modified. Every added row is a generated row. Whenever generation succeeds, including when duplicates were refused, the keys afterwards are the old keys plus every (participant, habit, day) tuple. |
| TaskService.GenerateCoversOnce | backend/src/modules/task/task.service.ts:32-35 | After generation each (challenge, participant, habit, day) tuple exists exactly once. |
| TaskService.GenerateIdempotent | backend/src/modules/task/task.service.ts:32-35 | Running generation twice with the same arguments gives the same store as running it once. |
| TaskService.EarnedUpdate | backend/src/modules/task/task.service.ts:48-53 | Replacing one task changes a user's earned points by that task's credit difference. |
| TaskService.GenerateKeepsBalance | backend/src/modules/task/task.service.ts:14-36 | Generation adds only incomplete tasks, so every user's points still equal what their completed tasks earned. |
| TaskService.CompleteTask | backend/src/modules/task/task.service.ts:42-56 | A missing task fails with "Task not found" and changes nothing. A completed task fails with "Task already completed", changes nothing and credits nothing. Otherwise the task becomes completed and is returned, and its owner's points rise by exactly its points. |
| TaskService.NoDoubleCredit | backend/src/modules/task/task.service.ts:45-46 | Completing the same task a second time fails and credits no points. |
| TaskService.CompleteKeepsInvariants | backend/src/modules/task/task.service.ts:42-56 | Completion keeps the index unique and completion times stamped, and keeps points equal to what completed tasks earned. |
| TaskService.GetDailyTasks | backend/src/modules/task/task.service.ts:38-40 | Exactly the user's tasks on that day are returned, each once and in store order: the list has one entry per id the day query finds, and entry k is the task stored under the k-th id. |
| TaskService.IsDailyCompletionDone | backend/src/modules/task/task.service.ts:58-64 | True exactly when the user has at least one task that day and every such task is completed. |
| ChallengeService.CreateChallenge | backend/src/modules/challenge/challenge.service.ts:21-23 | Creation succeeds exactly when the schema admits the input, appends one challenge with no participants, touches neither tasks nor points, and keeps every invariant. |
| ChallengeService.RejectJoin | backend/src/modules/challenge/challenge.service.ts:54-72 | Admission rules in order: already a participant; a solo challenge with one participant; a one-on-one challenge with two. A user is admitted exactly when they are new and one more participant fits the mode's capacity. |
| ChallengeService.MultiplayerNeverFull | backend/src/modules/challenge/challenge.service.ts:61-72 | A multiplayer challenge is never refused for capacity, and it admits every new user. |
| ChallengeService.JoinChallenge | backend/src/modules/challenge/challenge.service.ts:48-85 | Joining a missing challenge fails with "Challenge not found" and changes nothing; a join never changes points or the id counter. |
| ChallengeService.JoinRefused | backend/src/modules/challenge/challenge.service.ts:49-72 | A refused join reports the first failing rule and leaves every store unchanged. |
| ChallengeService.JoinAdmitted | backend/src/modules/challenge/challenge.service.ts:74-82 | An admitted user is appended at the end of the participant list, and no other challenge changes. New tasks are only the joiner's, only for the day of now, and only once now has reached the start date. |
| ChallengeService.JoinGeneratesOrReports | backend/src/modules/challenge/challenge.service.ts:74-82 | Once now has reached the start date, an admitted join either passes with the joiner's task for every habit of the day present, or, on an aborting fault, fails with that database code after the join was saved and with no task written. |
| ChallengeService.JoinedWellFormed | backend/src/modules/challenge/challenge.service.ts:54-74 | Appending an admitted user keeps the participant list distinct and within the mode's capacity. |
| ChallengeService.JoinKeepsInv | backend/src/modules/challenge/challenge.service.ts:54-75 | Joining keeps participants distinct and within the mode's capacity, and keeps every other invariant. |
| ChallengeService.GenerateAll | backend/src/modules/challenge/challenge.service.ts:32-41 | The batch over a list of challenges never modifies existing rows and keeps the index unique; `GenerateAllStops` states its outcome. |
| ChallengeService.GenerateAllSound | backend/src/modules/challenge/challenge.service.ts:32-41 | Every row the batch adds is a generated row of one of the listed challenges for that day. |
| ChallengeService.GenerateAllStops | backend/src/modules/challenge/challenge.service.ts:32-41 | The loop awaits each challenge in turn. It passes exactly when no listed challenge's generation aborts. Otherwise the first aborting challenge's code is reported, the challenges before it have all their (participant, habit, day) keys stored, and the ones after it get none. |
| ChallengeService.GenerateAllCovers | backend/src/modules/challenge/challenge.service.ts:32-41 | When no listed generation aborts (no failure, or only the duplicate-key code), the batch passes and adds exactly every listed challenge's (participant, habit, day) keys. |
| ChallengeService.GenerateDailyTasks | backend/src/modules/challenge/challenge.service.ts:29-42 | The daily batch changes neither challenges nor points, never modifies existing tasks, and keeps the task index unique; `DailyStops` states its outcome. |
| ChallengeService.DailyOnlyActive | backend/src/modules/challenge/challenge.service.ts:29-42 | Every task the daily batch adds belongs to a challenge active that day, one of its participants and one of its habits, dated to the day. |
| ChallengeService.DailyStops | backend/src/modules/challenge/challenge.service.ts:29-42 | The daily batch passes exactly when no active challenge's generation aborts. Otherwise it reports the code of the first aborting active challenge in store order, and only the active challenges before it got their tasks. |
| ChallengeService.DailyCoversActive | backend/src/modules/challenge/challenge.service.ts:29-42 | When no active challenge's generation aborts, every participant of every active challenge has each habit's task for the day exactly once. |
| ChallengeService.DailyIdempotent | backend/src/modules/challenge/challenge.service.ts:29-42 | When no active challenge's generation aborts, running the daily batch twice on the same day leaves the same state as running it once. |
| ChallengeService.DailyKeepsInv | backend/src/modules/challenge/challenge.service.ts:29-42 | The daily batch keeps every invariant, including that points equal what completed tasks earned. |
| ChallengeService.CompleteTask | backend/src/modules/task/task.service.ts:42-56 | Completion never touches challenges, a failure changes nothing, and every invariant survives. |
| TasksScheduler.HandleCron | backend/src/modules/task/schedulers/task.schedular.ts:13-28 | One firing changes neither challenges nor points, only adds tasks, and keeps every invariant, whatever failure the batch meets. |
| Decimal.NatToString | frontend/app/task-summary/page.tsx:192-201 | A natural number renders as non-empty decimal digits without a leading zero. |
| Decimal.NatRoundTrip | frontend/app/task-summary/page.tsx:192-201 | Reading back the rendered digits gives the number. |
| Decimal.IntRoundTrip | frontend/app/task-summary/page.tsx:192-201 | Reading back the rendering of any integer, negative ones included, gives the integer. |
| HabitCatalog.FindIn | frontend/app/challenge/create/page.tsx:30-31 | The lookup returns the first habit with the id, and nothing exactly when no habit has it. |
| HabitCatalog.HabitsDistinct | frontend/lib/constants.ts:3-95 | The catalog has exactly 7 habits, with pairwise distinct ids and pairwise distinct types. |
| HabitCatalog.HabitsOptions | frontend/lib/constants.ts:11-93 | Every habit offers exactly 3 requirement options, each a positive numeral. |
| HabitCatalog.EveryTypeListed | frontend/lib/constants.ts:3-95 | Every habit type has an entry in the catalog. |
| HabitCatalog.FindHabitExact | frontend/lib/constants.ts:3-95 | Looking up a catalog habit's id returns that habit. |
| HabitCatalog.TypeNamesAdmitted | frontend/lib/constants.ts:3-95 | Every habit type's name is a habit id that the backend validation admits. This holds by construction: the backend habit-id enum is modelled from these same names. |
| HabitCatalog.CatalogAgreesWithBackend | frontend/lib/constants.ts:11-93 | Every catalog requirement type is a backend requirement type, and every option value is at least 1, so it meets the backend's `Min(1)`. The type half holds by construction, since the backend requirement-type enum is modelled from the catalog's four types. |
| HabitCatalog.DurationsAdmitted | frontend/lib/constants.ts:97-102 | Every duration choice is at least the backend's minimum of one day. |
| HabitCatalog.ModesMatchBackend | frontend/lib/constants.ts:110-129 | The mode choices are exactly solo, one-on-one and multiplayer, in that order, and each parses as a backend mode. |
| HabitSelection.IndexOf | frontend/app/challenge/create/page.tsx:33-35 | Returns the first position holding the habit id, or nothing exactly when no entry has it. |
| HabitSelection.ToggleHabit | frontend/app/challenge/create/page.tsx:29-56 | An id not in the catalog leaves the selection unchanged. An already selected id is replaced in place, keeping the length and every other entry. A new id is appended at the end. The stored type is the catalog habit's type. |
| HabitSelection.ToggleKeepsDistinct | frontend/app/challenge/create/page.tsx:33-55 | Toggling never selects the same habit id twice. |
| HabitSelection.ToggleKeepsTypes | frontend/app/challenge/create/page.tsx:42-52 | Every entry's stored type keeps matching its catalog habit's type. |
| HabitSelection.ToggleUpserts | frontend/app/challenge/create/page.tsx:29-56 | The selection behaves as a map: after a toggle of a catalog habit, that habit maps to the new requirement, and every other habit keeps its requirement. |
| HabitSelection.ToggleIdempotent | frontend/app/challenge/create/page.tsx:29-56 | Repeating the same toggle changes nothing more. |
| TaskSummary.FormatRequirement | frontend/app/task-summary/page.tsx:186-203 | A missing requirement renders as the empty string and any present one as a non-empty text starting with its value. |
| TaskSummary.FormatRequirementParts | frontend/app/task-summary/page.tsx:186-203 | The text splits back into its parts: the leading number reads back as the value. Then come a space and the unit word for hours, glasses and minutes; "meal" when the meals value is at most 1 and "meals" above 1; and nothing for any other type. |
| TaskSummary.HabitColor | frontend/app/task-summary/page.tsx:205-216 | A listed type gets its listed class, and the gray default is returned exactly for names that are no habit type. |
| TaskSummary.CatalogColorsDistinct | frontend/app/task-summary/page.tsx:205-216 | Different habit types get different colours. |
| TaskSummary.ColorKeysAreTypes | frontend/app/task-summary/page.tsx:205-216 | The colour table is keyed by exactly the seven habit type names, and no listed colour is the gray default. |

## Left out

- Time zones and daylight saving: days are fixed 86 400 000 ms blocks of an integer clock, standing for date-fns' local-time `startOfDay` / `endOfDay`.
- Clocks: `now` and `today` are parameters. `joinChallenge` reads the clock twice; the model uses a single `now` for both reads.
- Concurrency: joins and completions are sequential steps. The read-then-save join race and the non-atomic completion-then-credit are not modelled.
- The challenge-mode, habit-id and requirement-type enum files are not part of this model. Their values are taken from the frontend: habit ids from the `HabitType` union, requirement types from the four the catalog uses (hours, glasses, meals, minutes), and modes from the `ChallengeMode` union (frontend/types/index.ts:37) and `CHALLENGE_MODES` (frontend/lib/constants.ts:110-129).
- `participantIds`, `endDate` and the owner `userId` are not declared on the challenge schema. The model carries all three as fields; `create` sets no participants, no end date and no owner, and no end-date or owner derivation is invented.
- Mongo documents: ObjectIds become naturals, task ids are positions in the task store, and tasks are never deleted.
- Failures: a database failure is reduced to its numeric code (`DatabaseError(code)`). Errors that carry no `code`, such as a lost connection, are not told apart; they stand as some code other than 11000, which the service rethrows just as it rethrows them.
- TaskRepository.CreateMany: a fault other than 11000 is modelled as aborting the whole batch with the store unchanged; the rows an unordered insert may already have written before such a failure are not modelled.
- ChallengeService.JoinChallenge: a failure of `challenge.save()` is not modelled; the save always succeeds.
- Task.habitId non-emptiness: the schema's required-string rule is not modelled on tasks; generated tasks copy the challenge's habit ids, which the challenge schema already requires to be non-empty.
- UserPoints.Increment: `incrementPoints` is not defined in the users service. It is modelled as an additive update of an abstract points map, so the user store has no other state here.
- Auth (JWT signing, bcrypt), controllers, Nest modules, `main.ts`, the seeder and the id-only DTOs are wiring, I/O or foreign calls.
- `findAll`, `getChallenge`, `findByUser`, `exists` and `findMany` are direct database reads without rules of their own. `findMany` appears only as the store order that `FindActive` keeps.
- TasksScheduler.HandleCron: the cron timing and the log lines are not modelled.
- Frontend UI: rendering, routing, toasts, local storage, the API client, the wizard step components, and the login, home, dashboard and challenge-list pages are not modelled. The dashboard's copy of the two display helpers is identical to the summary page's.
- The frontend's `checkChallengeStatus` (a wall-clock start-plus-duration rule) and `handleSubmit`'s date computation are not modelled.
- Catalog icons and descriptions, and the start-date options, are display text only.
- TaskSummary.FormatRequirement: values are integers. Non-integral numbers and JavaScript's exponent notation for magnitudes of 10^21 and above are not modelled.
- TaskSummary.HabitColor: keys inherited from `Object.prototype` (such as "constructor"), which the source's plain-object lookup would also find, are not modelled.

=== FILE: challenge_repository.dfy ===
/**
 * The challenge collection and its queries
 * (backend/src/modules/challenge/schema/challenge.repository.ts).
 * The collection is a sequence in natural (insertion) order.
 */
module ChallengeRepository {
  import opened Results
  import opened Clock
  import opened Failures
  import opened ChallengeSchema
  import opened CreateChallengeDto

  datatype Store = Store(rows: seq<Challenge>, nextId: ChallengeId)

  predicate UniqueIds(rows: seq<Challenge>) {
    forall i, j :: 0 <= i < j < |rows| ==> rows[i].id != rows[j].id
  }

  /** Ids are unique and below the next id to hand out, and every stored challenge is well formed. */
  predicate Valid(st: Store) {
    && UniqueIds(st.rows)
    && (forall c :: c in st.rows ==> c.id < st.nextId)
    && (forall c :: c in st.rows ==> WellFormed(c))
  }

  /** The first challenge with the given id. */
  function FindById(rows: seq<Challenge>, id: ChallengeId): (r: Option<Challenge>)
    ensures r.Some? ==> r.value in rows && r.value.id == id
    ensures r.None? <==> forall c :: c in rows ==> c.id != id
  {
    if rows == [] then None
    else if rows[0].id == id then Some(rows[0])
    else FindById(rows[1..], id)
  }

  /** With unique ids, the lookup finds the one challenge carrying the id. */
  lemma {:induction false} FindByIdUnique(rows: seq<Challenge>, c: Challenge)
    requires UniqueIds(rows) && c in rows
    ensures FindById(rows, c.id) == Some(c)
  {
    if rows[0] != c {
      assert c in rows[1..];
      assert rows[0].id != c.id by {
        var k :| 0 <= k < |rows| && rows[k] == c;
      }
      FindByIdUnique(rows[1..], c);
    }
  }

  /**
   * `create`: copy duration, habits and mode from the request, read startDate from
   * its text, and save. The schema refuses a record breaking its rules; a new
   * challenge has no participants, and no end date or owner is written.
   */
  function Create(st: Store, dto: Dto): (r: Result<(Store, Challenge), Error>)
    ensures r.Err? <==> !SchemaAdmits(dto)
    ensures r.Err? ==> r.error == DocumentRejected
    ensures r.Ok? ==> var (st', c) := r.value;
              && c.duration == dto.duration
              && c.habits == dto.habits
              && ModeName(c.mode) == dto.mode
              && ParseDate(dto.startDate) == Some(c.startDate)
              && c.participantIds == []
              && c.endDate.None? && c.userId.None?
              && st'.rows == st.rows + [c]
              && (Valid(st) ==> Valid(st') && FindById(st.rows, c.id).None?)
  {
    if !SchemaAdmits(dto) then Err(DocumentRejected)
    else
      var mode := ParseMode(dto.mode).value;
      var c := Challenge(st.nextId, dto.duration, ParseDate(dto.startDate).value, mode,
                         dto.habits, [], None, None);
      var st' := Store(st.rows + [c], st.nextId + 1);
      assert Valid(st) ==> Valid(st') by {
        if Valid(st) {
          assert forall i :: 0 <= i < |st.rows| ==> st.rows[i] in st.rows;
        }
      }
      Ok((st', c))
  }

  /** `save` of a loaded document: the stored challenge with the same id is replaced. */
  function Save(rows: seq<Challenge>, c: Challenge): (r: seq<Challenge>)
    ensures |r| == |rows|
    ensures forall i :: 0 <= i < |rows| && rows[i].id != c.id ==> r[i] == rows[i]
    ensures forall i :: 0 <= i < |rows| && rows[i].id == c.id ==> r[i] == c
  {
    if rows == [] then []
    else [if rows[0].id == c.id then c else rows[0]] + Save(rows[1..], c)
  }

  /** After saving a challenge under an existing id, looking that id up yields the saved record. */
  lemma {:induction false} SaveThenFind(rows: seq<Challenge>, c: Challenge)
    requires FindById(rows, c.id).Some?
    ensures FindById(Save(rows, c), c.id) == Some(c)
  {
    if rows[0].id != c.id {
      assert Save(rows, c)[1..] == Save(rows[1..], c);
      SaveThenFind(rows[1..], c);
    }
  }

  /** Saving a challenge does not change what any other id looks up to. */
  lemma {:induction false} SaveKeepsOthers(rows: seq<Challenge>, c: Challenge, id: ChallengeId)
    requires id != c.id
    ensures FindById(Save(rows, c), id) == FindById(rows, id)
  {
    if rows != [] {
      assert Save(rows, c)[1..] == Save(rows[1..], c);
      SaveKeepsOthers(rows[1..], c, id);
    }
  }

  /** Saving a challenge under an existing id keeps the ids unique. */
  lemma SaveKeepsIds(rows: seq<Challenge>, c: Challenge)
    requires UniqueIds(rows)
    ensures UniqueIds(Save(rows, c))
    ensures forall i :: 0 <= i < |rows| ==> Save(rows, c)[i].id == rows[i].id || rows[i].id == c.id
  {
  }

  /** The filter `deleteOne` applies: both the id and the owner must match. */
  predicate DeleteMatches(c: Challenge, id: ChallengeId, userId: UserId) {
    c.id == id && c.userId == Some(userId)
  }

  /** `delete`: remove the first challenge matching both id and owner; nothing else changes. */
  function Delete(rows: seq<Challenge>, id: ChallengeId, userId: UserId): (r: seq<Challenge>)
    ensures forall c :: c in r ==> c in rows
    ensures forall c :: c in rows && !DeleteMatches(c, id, userId) ==> c in r
    ensures (forall c :: c in rows ==> !DeleteMatches(c, id, userId)) ==> r == rows
    ensures (exists c :: c in rows && DeleteMatches(c, id, userId)) ==> |r| == |rows| - 1
  {
    if rows == [] then []
    else if DeleteMatches(rows[0], id, userId) then rows[1..]
    else [rows[0]] + Delete(rows[1..], id, userId)
  }

  /** The tail of a list with unique ids has unique ids, none equal to the head's. */
  lemma UniqueTail(rows: seq<Challenge>)
    requires UniqueIds(rows) && rows != []
    ensures UniqueIds(rows[1..])
    ensures forall c :: c in rows[1..] ==> c.id != rows[0].id
  {
    forall c | c in rows[1..] ensures c.id != rows[0].id {
      var k :| 0 <= k < |rows[1..]| && rows[1..][k] == c;
      assert rows[k + 1] == c;
    }
  }

  /** Putting a challenge with a new id in front keeps ids unique. */
  lemma UniqueCons(c: Challenge, rest: seq<Challenge>)
    requires UniqueIds(rest) && forall x :: x in rest ==> x.id != c.id
    ensures UniqueIds([c] + rest)
  {
    var r := [c] + rest;
    forall i, j | 0 <= i < j < |r| ensures r[i].id != r[j].id {
      assert r[j] == rest[j - 1];
      if i == 0 {
        assert rest[j - 1] in rest;
      } else {
        assert r[i] == rest[i - 1];
      }
    }
  }

  /** Deleting keeps ids unique. */
  lemma {:induction false} DeleteKeepsUnique(rows: seq<Challenge>, id: ChallengeId, userId: UserId)
    requires UniqueIds(rows)
    ensures UniqueIds(Delete(rows, id, userId))
  {
    if rows != [] {
      UniqueTail(rows);
      if !DeleteMatches(rows[0], id, userId) {
        var rest := Delete(rows[1..], id, userId);
        DeleteKeepsUnique(rows[1..], id, userId);
        UniqueCons(rows[0], rest);
      }
    }
  }

  /** With unique ids, a delete that matched leaves no challenge with that id behind. */
  lemma {:induction false} DeleteRemovesId(rows: seq<Challenge>, id: ChallengeId, userId: UserId)
    requires UniqueIds(rows)
    ensures UniqueIds(Delete(rows, id, userId))
    ensures (exists c :: c in rows && DeleteMatches(c, id, userId)) ==>
              FindById(Delete(rows, id, userId), id).None?
  {
    DeleteKeepsUnique(rows, id, userId);
    if rows != [] && exists c :: c in rows && DeleteMatches(c, id, userId) {
      UniqueTail(rows);
      if !DeleteMatches(rows[0], id, userId) {
        var c :| c in rows && DeleteMatches(c, id, userId);
        assert c in rows[1..];
        DeleteRemovesId(rows[1..], id, userId);
        assert rows[0].id != id;
        assert Delete(rows, id, userId) == [rows[0]] + Delete(rows[1..], id, userId);
      }
    }
  }

  /**
   * A challenge is active on `today` when it has started and its end date is not
   * yet past. Both ends are inclusive; a challenge without an end date compares
   * false against it and is never active.
   */
  predicate IsActive(c: Challenge, today: Time) {
    c.startDate <= today && c.endDate.Some? && today <= c.endDate.value
  }

  /** `findActiveChallenges`: the stored challenges active on `today`, in collection order. */
  function FindActive(rows: seq<Challenge>, today: Time): (r: seq<Challenge>)
    ensures forall c :: c in r <==> c in rows && IsActive(c, today)
    ensures |r| <= |rows|
  {
    if rows == [] then []
    else (if IsActive(rows[0], today) then [rows[0]] else []) + FindActive(rows[1..], today)
  }

  /** The query keeps collection order: it distributes over concatenation. */
  lemma {:induction false} FindActiveAppend(a: seq<Challenge>, b: seq<Challenge>, today: Time)
    ensures FindActive(a + b, today) == FindActive(a, today) + FindActive(b, today)
  {
    if a != [] {
      assert (a + b)[0] == a[0];
      assert (a + b)[1..] == a[1..] + b;
      FindActiveAppend(a[1..], b, today);
    } else {
      assert a + b == b;
    }
  }

  /** Every challenge `create` produces lacks an end date, so it is never among the active ones. */
  lemma CreatedNeverActive(st: Store, dto: Dto, today: Time)
    requires Create(st, dto).Ok?
    ensures Create(st, dto).value.1 !in FindActive(Create(st, dto).value.0.rows, today)
  {
  }

  /**
   * `create` sets no owner, so the owner filter of `delete` never matches a
   * created challenge: whoever asks, it stays in the store.
   */
  lemma CreatedNeverDeleted(st: Store, dto: Dto, userId: UserId)
    requires Create(st, dto).Ok?
    ensures var (st', c) := Create(st, dto).value;
            c in Delete(st'.rows, c.id, userId)
  {
  }
}

=== FILE: challenge_schema.dfy ===
/**
 * The stored Challenge record and the constraints the document schema places on
 * it (backend/src/modules/challenge/schema/challenge.schema.ts).
 */
module ChallengeSchema {
  import opened Results
  import opened Clock

  type UserId = nat
  type ChallengeId = nat

  /** The ChallengeMode enum: its three members and their stored spellings. */
  datatype Mode = Solo | OneOnOne | Multiplayer

  function ModeName(m: Mode): string {
    match m
    case Solo => "solo"
    case OneOnOne => "one-on-one"
    case Multiplayer => "multiplayer"
  }

  /** Casting a stored string to the enum: only the three spellings are admitted. */
  function ParseMode(s: string): (r: Option<Mode>)
    ensures r.Some? ==> ModeName(r.value) == s
    ensures forall m: Mode :: ModeName(m) == s ==> r == Some(m)
  {
    if s == "solo" then Some(Solo)
    else if s == "one-on-one" then Some(OneOnOne)
    else if s == "multiplayer" then Some(Multiplayer)
    else None
  }

  /** How many participants a mode admits; `None` means unbounded. */
  function Capacity(m: Mode): Option<nat> {
    match m
    case Solo => Some(1)
    case OneOnOne => Some(2)
    case Multiplayer => None
  }

  predicate WithinCapacity(m: Mode, count: nat) {
    Capacity(m).None? || count <= Capacity(m).value
  }

  /** A habit requirement: what counts as doing the habit on one day. Numbers are JSON numbers. */
  datatype Requirement = Requirement(kind: string, value: real)

  /** One entry of a challenge's habit list (also the shape the creation request carries). */
  datatype HabitEntry = HabitEntry(habitId: string, requirement: Requirement)

  /**
   * A stored challenge. `participantIds`, `endDate` and `userId` are read by the
   * service and repository but are not declared by the schema; they are explicit
   * fields here. `endDate` and `userId` are never written by creation, hence Option.
   */
  datatype Challenge = Challenge(
    id: ChallengeId,
    duration: real,
    startDate: Time,
    mode: Mode,
    habits: seq<HabitEntry>,
    participantIds: seq<UserId>,
    endDate: Option<Time>,
    userId: Option<UserId>)

  /** A required string rejects the empty string; a number with `min: 1` rejects anything below 1. */
  predicate HabitAdmitted(h: HabitEntry) {
    && |h.habitId| > 0
    && |h.requirement.kind| > 0
    && h.requirement.value >= 1.0
  }

  /** The per-document schema rules: duration at least 1 and every habit entry admitted. */
  predicate SchemaValid(c: Challenge) {
    && c.duration >= 1.0
    && forall i :: 0 <= i < |c.habits| ==> HabitAdmitted(c.habits[i])
  }

  predicate Distinct<T(==)>(s: seq<T>) {
    forall i, j :: 0 <= i < j < |s| ==> s[i] != s[j]
  }

  /** Participants are pairwise distinct and never more than the mode admits. */
  predicate ParticipantsOk(c: Challenge) {
    Distinct(c.participantIds) && WithinCapacity(c.mode, |c.participantIds|)
  }

  predicate WellFormed(c: Challenge) {
    SchemaValid(c) && ParticipantsOk(c)
  }

  /** The enum names are pairwise distinct, so a stored mode reads back as itself. */
  lemma ModeNameRoundTrip(m: Mode)
    ensures ParseMode(ModeName(m)) == Some(m)
  {
  }
}

=== FILE: challenge_service.dfy ===
/**
 * Challenge creation, admission of participants and the daily generation batch
 * (backend/src/modules/challenge/challenge.service.ts). The service sees the three
 * stores as one state value and returns the state after each step together with
 * the step's outcome.
 */
module ChallengeService {
  import opened Results
  import opened Clock
  import opened Failures
  import opened ChallengeSchema
  import opened CreateChallengeDto
  import ChallengeRepository
  import TaskRepository
  import opened TaskSchema
  import opened UserPoints
  import opened TaskService

  datatype State = State(challenges: ChallengeRepository.Store, tasks: seq<Task>, points: Ledger)

  /** The state after a step and the value or error the caller is told. */
  datatype Reply<T> = Reply(state: State, result: Result<T, Error>)

  /** The state after a step that returns no value, and whether it passed. */
  datatype Step = Step(state: State, outcome: Outcome<Error>)

  /** The invariants every step keeps: valid challenges, the unique task index, stamped completions, and balanced points. */
  ghost predicate Inv(st: State) {
    && ChallengeRepository.Valid(st.challenges)
    && UniqueKeys(st.tasks)
    && (forall t :: t in st.tasks ==> CompletionStamped(t))
    && Balanced(st.tasks, st.points)
  }

  /** `createChallenge`: delegate to the repository; tasks and points are untouched. */
  function CreateChallenge(st: State, dto: Dto): (r: Reply<Challenge>)
    ensures r.result.Ok? <==> SchemaAdmits(dto)
    ensures r.result.Err? ==> r.state == st
    ensures r.result.Ok? ==> && r.state.challenges.rows == st.challenges.rows + [r.result.value]
                             && r.result.value.participantIds == []
                             && r.state.tasks == st.tasks && r.state.points == st.points
    ensures Inv(st) ==> Inv(r.state)
  {
    match ChallengeRepository.Create(st.challenges, dto)
    case Err(e) => Reply(st, Err(e))
    case Ok((store, c)) => Reply(st.(challenges := store), Ok(c))
  }

  /** The admission rules in the order the service applies them; `None` admits the user. */
  function RejectJoin(c: Challenge, userId: UserId): (r: Option<Error>)
    ensures userId in c.participantIds ==> r == Some(UserAlreadyJoined)
    ensures userId !in c.participantIds && c.mode == Solo && |c.participantIds| >= 1 ==> r == Some(SoloChallengeFull)
    ensures userId !in c.participantIds && c.mode == OneOnOne && |c.participantIds| >= 2 ==> r == Some(OneOnOneChallengeFull)
    ensures r.None? <==> userId !in c.participantIds && WithinCapacity(c.mode, |c.participantIds| + 1)
  {
    var count := |c.participantIds|;
    if userId in c.participantIds then Some(UserAlreadyJoined)
    else
      match c.mode
      case Solo => if count >= 1 then Some(SoloChallengeFull) else None
      case OneOnOne => if count >= 2 then Some(OneOnOneChallengeFull) else None
      case Multiplayer => None
  }

  /** A multiplayer challenge never refuses anyone for lack of room. */
  lemma MultiplayerNeverFull(c: Challenge, userId: UserId)
    requires c.mode == Multiplayer
    ensures RejectJoin(c, userId) != Some(SoloChallengeFull)
    ensures RejectJoin(c, userId) != Some(OneOnOneChallengeFull)
    ensures userId !in c.participantIds ==> RejectJoin(c, userId).None?
  {
  }

  /**
   * `joinChallenge`: find the challenge, apply the admission rules, append the
   * user and save; then, if the challenge has started by `now`, generate the new
   * user's tasks for the day of `now`. A generation failure is reported after the
   * join has been saved. `fault` is what the database reports for that insert.
   */
  function JoinChallenge(st: State, challengeId: ChallengeId, userId: UserId, now: Time, fault: Option<int>): (r: Step)
    ensures ChallengeRepository.FindById(st.challenges.rows, challengeId).None? ==> r == Step(st, Fail(ChallengeNotFound))
    ensures r.state.points == st.points && r.state.challenges.nextId == st.challenges.nextId
  {
    match ChallengeRepository.FindById(st.challenges.rows, challengeId)
    case None => Step(st, Fail(ChallengeNotFound))
    case Some(c) =>
      match RejectJoin(c, userId)
      case Some(e) => Step(st, Fail(e))
      case None =>
        var joined := c.(participantIds := c.participantIds + [userId]);
        var saved := st.(challenges := st.challenges.(rows := ChallengeRepository.Save(st.challenges.rows, joined)));
        if now >= c.startDate then
          match GenerateTasks(st.tasks, c.id, c.habits, now, [userId], fault)
          case Err(e) => Step(saved, Fail(e))
          case Ok(tasks) => Step(saved.(tasks := tasks), Pass)
        else Step(saved, Pass)
  }

  /** A refused join leaves every store as it was and reports the first rule that failed. */
  lemma JoinRefused(st: State, c: Challenge, userId: UserId, now: Time, fault: Option<int>)
    requires ChallengeRepository.FindById(st.challenges.rows, c.id) == Some(c)
    requires RejectJoin(c, userId).Some?
    ensures JoinChallenge(st, c.id, userId, now, fault) == Step(st, Fail(RejectJoin(c, userId).value))
  {
  }

  /**
   * An admitted join appends the user at the end of the participant list, changes
   * no other challenge, and creates tasks only for that user, only for the day of
   * `now`, and only once the challenge has started.
   */
  lemma JoinAdmitted(st: State, c: Challenge, userId: UserId, now: Time, fault: Option<int>, other: ChallengeId)
    requires ChallengeRepository.FindById(st.challenges.rows, c.id) == Some(c)
    requires RejectJoin(c, userId).None?
    ensures var r := JoinChallenge(st, c.id, userId, now, fault);
            && ChallengeRepository.FindById(r.state.challenges.rows, c.id) == Some(c.(participantIds := c.participantIds + [userId]))
            && (other != c.id ==> ChallengeRepository.FindById(r.state.challenges.rows, other)
                                  == ChallengeRepository.FindById(st.challenges.rows, other))
            && (now < c.startDate ==> r.state.tasks == st.tasks && r.outcome.Pass?)
            && st.tasks <= r.state.tasks
            && forall i :: |st.tasks| <= i < |r.state.tasks| ==>
                 GeneratedRow(r.state.tasks[i], c.id, c.habits, [userId], StartOfDay(now))
  {
    var joined := c.(participantIds := c.participantIds + [userId]);
    ChallengeRepository.SaveThenFind(st.challenges.rows, joined);
    if other != c.id {
      ChallengeRepository.SaveKeepsOthers(st.challenges.rows, joined, other);
    }
  }

  /**
   * Once the challenge has started, an admitted join does generate: the joiner
   * gets a task for every habit of the challenge on the day of `now`, and the
   * join passes. A failure other than a duplicate key is reported after the
   * join was saved, with no task written.
   */
  lemma JoinGeneratesOrReports(st: State, c: Challenge, userId: UserId, now: Time, fault: Option<int>)
    requires ChallengeRepository.FindById(st.challenges.rows, c.id) == Some(c)
    requires RejectJoin(c, userId).None?
    requires now >= c.startDate
    ensures var r := JoinChallenge(st, c.id, userId, now, fault);
            && (!TaskRepository.Aborts(fault) ==>
                  r.outcome.Pass?
                  && forall h :: h in c.habits ==> Key(c.id, userId, h.habitId, StartOfDay(now)) in KeysOf(r.state.tasks))
            && (TaskRepository.Aborts(fault) ==>
                  r.outcome == Fail(DatabaseError(fault.value)) && r.state.tasks == st.tasks)
  {
    assert userId in [userId];
  }

  /** An admitted user keeps the participant list distinct and within the mode's capacity. */
  lemma JoinedWellFormed(c: Challenge, userId: UserId)
    requires WellFormed(c) && RejectJoin(c, userId).None?
    ensures WellFormed(c.(participantIds := c.participantIds + [userId]))
  {
    var ps := c.participantIds + [userId];
    forall i, j | 0 <= i < j < |ps| ensures ps[i] != ps[j] {
      if j == |ps| - 1 {
        assert ps[i] in c.participantIds;
      }
    }
  }

  /** Joining keeps participants distinct and within the mode's capacity, and keeps every other invariant. */
  lemma JoinKeepsInv(st: State, challengeId: ChallengeId, userId: UserId, now: Time, fault: Option<int>)
    requires Inv(st)
    ensures Inv(JoinChallenge(st, challengeId, userId, now, fault).state)
  {
    var rows := st.challenges.rows;
    var r := JoinChallenge(st, challengeId, userId, now, fault);
    match ChallengeRepository.FindById(rows, challengeId)
    case None =>
    case Some(c) =>
      if RejectJoin(c, userId).None? {
        var joined := c.(participantIds := c.participantIds + [userId]);
        JoinedWellFormed(c, userId);
        var saved := ChallengeRepository.Save(rows, joined);
        ChallengeRepository.SaveKeepsIds(rows, joined);
        forall x | x in saved ensures WellFormed(x) && x.id < st.challenges.nextId {
          var k :| 0 <= k < |saved| && saved[k] == x;
          assert rows[k] in rows;
        }
        if now >= c.startDate && r.outcome.Pass? {
          GenerateKeepsBalance(st.tasks, st.points, c.id, c.habits, now, [userId], fault);
          var ts := r.state.tasks;
          forall t | t in ts ensures CompletionStamped(t) {
            var k :| 0 <= k < |ts| && ts[k] == t;
            if k < |st.tasks| {
              assert st.tasks[k] in st.tasks;
            }
          }
        }
      }
  }

  /** The failure, if any, the database reports while generating for a challenge. */
  function FaultFor(faults: map<ChallengeId, int>, id: ChallengeId): Option<int> {
    if id in faults then Some(faults[id]) else None
  }

  /** No listed challenge meets a failure that aborts its generation. */
  predicate NoneAborts(cs: seq<Challenge>, faults: map<ChallengeId, int>) {
    forall k :: 0 <= k < |cs| ==> !TaskRepository.Aborts(FaultFor(faults, cs[k].id))
  }

  /** The position of the first listed challenge whose generation aborts, or the list's length when none does. */
  function FirstAbort(cs: seq<Challenge>, faults: map<ChallengeId, int>): (k: nat)
    ensures k <= |cs|
    ensures forall j :: 0 <= j < k ==> !TaskRepository.Aborts(FaultFor(faults, cs[j].id))
    ensures k < |cs| ==> TaskRepository.Aborts(FaultFor(faults, cs[k].id))
    ensures k == |cs| <==> NoneAborts(cs, faults)
    decreases |cs|
  {
    if cs == [] then 0
    else if TaskRepository.Aborts(FaultFor(faults, cs[0].id)) then 0
    else 1 + FirstAbort(cs[1..], faults)
  }

  /** The keys the batch is meant to cover: every participant and habit of every listed challenge, for the day. */
  function DailyKeys(cs: seq<Challenge>, day: Time): set<Key> {
    if cs == [] then {}
    else ExpectedKeys(cs[0].id, cs[0].habits, cs[0].participantIds, day) + DailyKeys(cs[1..], day)
  }

  /** The row was generated for one of the listed challenges, for one of its participants and habits. */
  ghost predicate GeneratedForSome(t: Task, cs: seq<Challenge>, day: Time) {
    exists c :: c in cs && GeneratedFor(t, c, day)
  }

  /** The row was generated for the challenge, one of its participants and habits, and the day. */
  predicate GeneratedFor(t: Task, c: Challenge, day: Time) {
    GeneratedRow(t, c.id, c.habits, c.participantIds, day)
  }

  /** The loop of `generateDailyTasks`: generate for each challenge in turn with its full participant list; the first failure ends the loop. */
  function GenerateAll(rows: seq<Task>, cs: seq<Challenge>, today: Time, faults: map<ChallengeId, int>): (r: (seq<Task>, Outcome<Error>))
    ensures rows <= r.0
    ensures UniqueKeys(rows) ==> UniqueKeys(r.0)
    decreases |cs|
  {
    if cs == [] then (rows, Pass)
    else
      var c := cs[0];
      match GenerateTasks(rows, c.id, c.habits, today, c.participantIds, FaultFor(faults, c.id))
      case Err(e) => (rows, Fail(e))
      case Ok(next) => GenerateAll(next, cs[1..], today, faults)
  }

  /** Every row past the first `n` was generated for one of the listed challenges and the day. */
  ghost predicate AddedFor(rows: seq<Task>, n: nat, cs: seq<Challenge>, day: Time) {
    forall i :: n <= i < |rows| ==> GeneratedForSome(rows[i], cs, day)
  }

  /** Every row the loop adds belongs to one of the listed challenges, one of its participants and habits, and the day. */
  lemma {:induction false} GenerateAllSound(rows: seq<Task>, cs: seq<Challenge>, today: Time, faults: map<ChallengeId, int>)
    ensures AddedFor(GenerateAll(rows, cs, today, faults).0, |rows|, cs, StartOfDay(today))
    decreases |cs|
  {
    if cs != [] {
      var c := cs[0];
      var day := StartOfDay(today);
      var g := GenerateTasks(rows, c.id, c.habits, today, c.participantIds, FaultFor(faults, c.id));
      if g.Ok? {
        var r := GenerateAll(g.value, cs[1..], today, faults).0;
        assert GenerateAll(rows, cs, today, faults).0 == r;
        GenerateAllSound(g.value, cs[1..], today, faults);
        assert AddedFor(r, |g.value|, cs[1..], day);
        forall i | |rows| <= i < |r| ensures GeneratedForSome(r[i], cs, day) {
          if i < |g.value| {
            assert r[i] == g.value[i];
            assert GeneratedFor(r[i], c, day);
          } else {
            assert GeneratedForSome(r[i], cs[1..], day);
            var x :| x in cs[1..] && GeneratedFor(r[i], x, day);
            assert x in cs;
          }
        }
      }
    }
  }

  /**
   * The loop awaits each challenge in turn, so the first aborting failure ends
   * it and is reported with its code: the challenges before it keep their
   * tasks and the ones after it get none. The loop passes exactly when no
   * listed challenge's generation aborts.
   */
  lemma GenerateAllStops(rows: seq<Task>, cs: seq<Challenge>, today: Time, faults: map<ChallengeId, int>)
    ensures var r := GenerateAll(rows, cs, today, faults);
            var k := FirstAbort(cs, faults);
            && (r.1.Pass? <==> NoneAborts(cs, faults))
            && (k < |cs| ==> r.1 == Fail(DatabaseError(faults[cs[k].id])))
            && KeysOf(r.0) == KeysOf(rows) + DailyKeys(cs[..k], StartOfDay(today))
  {
    GenerateAllOutcome(rows, cs, today, faults);
    GenerateAllPrefixKeys(rows, cs, today, faults);
  }

  /** The loop's outcome: it passes exactly when nothing aborts, and otherwise reports the first aborting code. */
  lemma {:induction false} GenerateAllOutcome(rows: seq<Task>, cs: seq<Challenge>, today: Time, faults: map<ChallengeId, int>)
    ensures var r := GenerateAll(rows, cs, today, faults);
            var k := FirstAbort(cs, faults);
            && (r.1.Pass? <==> NoneAborts(cs, faults))
            && (k < |cs| ==> r.1 == Fail(DatabaseError(faults[cs[k].id])))
    decreases |cs|
  {
    if cs != [] {
      NoneAbortsCons(cs, faults);
      if TaskRepository.Aborts(FaultFor(faults, cs[0].id)) {
        var g := GenerateTasks(rows, cs[0].id, cs[0].habits, today, cs[0].participantIds, FaultFor(faults, cs[0].id));
        assert g == Err(DatabaseError(faults[cs[0].id]));
        assert GenerateAll(rows, cs, today, faults) == (rows, Fail(DatabaseError(faults[cs[0].id])));
        assert FirstAbort(cs, faults) == 0;
      } else {
        var next := GenerateTasks(rows, cs[0].id, cs[0].habits, today, cs[0].participantIds, FaultFor(faults, cs[0].id)).value;
        var k := FirstAbort(cs[1..], faults);
        var r := GenerateAll(next, cs[1..], today, faults);
        GenerateAllOutcome(next, cs[1..], today, faults);
        GenerateAllStep(rows, cs, today, faults);
        assert GenerateAll(rows, cs, today, faults) == r;
        assert FirstAbort(cs, faults) == k + 1;
        if k < |cs[1..]| {
          assert cs[1..][k] == cs[k + 1];
          assert r.1 == Fail(DatabaseError(faults[cs[k + 1].id]));
        }
      }
    }
  }

  /** The loop stores exactly the keys of the challenges before the first aborting one. */
  lemma {:induction false} GenerateAllPrefixKeys(rows: seq<Task>, cs: seq<Challenge>, today: Time, faults: map<ChallengeId, int>)
    ensures KeysOf(GenerateAll(rows, cs, today, faults).0)
            == KeysOf(rows) + DailyKeys(cs[..FirstAbort(cs, faults)], StartOfDay(today))
    decreases |cs|
  {
    if cs != [] {
      if TaskRepository.Aborts(FaultFor(faults, cs[0].id)) {
        assert cs[..0] == [];
      } else {
        var day := StartOfDay(today);
        var g := GenerateTasks(rows, cs[0].id, cs[0].habits, today, cs[0].participantIds, FaultFor(faults, cs[0].id));
        var expected := ExpectedKeys(cs[0].id, cs[0].habits, cs[0].participantIds, day);
        assert KeysOf(g.value) == KeysOf(rows) + expected;
        var k := FirstAbort(cs[1..], faults);
        var rest := DailyKeys(cs[1..][..k], day);
        GenerateAllPrefixKeys(g.value, cs[1..], today, faults);
        GenerateAllStep(rows, cs, today, faults);
        DailyKeysPrefix(cs, k, day);
        assert KeysOf(GenerateAll(rows, cs, today, faults).0) == KeysOf(g.value) + rest;
        assert DailyKeys(cs[..k + 1], day) == expected + rest;
      }
    }
  }

  /** One passing step of the loop: the rest of the run starts from the grown store and the remaining challenges. */
  lemma GenerateAllStep(rows: seq<Task>, cs: seq<Challenge>, today: Time, faults: map<ChallengeId, int>)
    requires cs != [] && !TaskRepository.Aborts(FaultFor(faults, cs[0].id))
    ensures var next := GenerateTasks(rows, cs[0].id, cs[0].habits, today, cs[0].participantIds, FaultFor(faults, cs[0].id)).value;
            && GenerateAll(rows, cs, today, faults) == GenerateAll(next, cs[1..], today, faults)
            && FirstAbort(cs, faults) == FirstAbort(cs[1..], faults) + 1
  {
  }

  /** No failure aborts a non-empty list exactly when none aborts its head and none aborts its tail. */
  lemma NoneAbortsCons(cs: seq<Challenge>, faults: map<ChallengeId, int>)
    requires cs != []
    ensures NoneAborts(cs, faults) <==> !TaskRepository.Aborts(FaultFor(faults, cs[0].id)) && NoneAborts(cs[1..], faults)
  {
    if !TaskRepository.Aborts(FaultFor(faults, cs[0].id)) && NoneAborts(cs[1..], faults) {
      forall j | 0 <= j < |cs| ensures !TaskRepository.Aborts(FaultFor(faults, cs[j].id)) {
        if j > 0 { assert cs[j] == cs[1..][j - 1]; }
      }
    }
  }

  /** The keys of the first k+1 challenges are the head's keys and those of the tail's first k. */
  lemma DailyKeysPrefix(cs: seq<Challenge>, k: nat, day: Time)
    requires k < |cs|
    ensures DailyKeys(cs[..k + 1], day)
            == ExpectedKeys(cs[0].id, cs[0].habits, cs[0].participantIds, day) + DailyKeys(cs[1..][..k], day)
  {
    assert cs[..k + 1][1..] == cs[1..][..k];
  }

  /** When no listed failure aborts, the loop runs to the end and stores every key it was meant to cover. */
  lemma GenerateAllCovers(rows: seq<Task>, cs: seq<Challenge>, today: Time, faults: map<ChallengeId, int>)
    requires NoneAborts(cs, faults)
    ensures var r := GenerateAll(rows, cs, today, faults);
            r.1.Pass? && KeysOf(r.0) == KeysOf(rows) + DailyKeys(cs, StartOfDay(today))
  {
    GenerateAllStops(rows, cs, today, faults);
    assert cs[..|cs|] == cs;
  }

  /** `generateDailyTasks`: run generation for every challenge active on `today`. */
  function GenerateDailyTasks(st: State, today: Time, faults: map<ChallengeId, int>): (r: Step)
    ensures r.state.challenges == st.challenges && r.state.points == st.points
    ensures st.tasks <= r.state.tasks
    ensures UniqueKeys(st.tasks) ==> UniqueKeys(r.state.tasks)
  {
    var active := ChallengeRepository.FindActive(st.challenges.rows, today);
    var g := GenerateAll(st.tasks, active, today, faults);
    Step(st.(tasks := g.0), g.1)
  }

  /** Each row the batch adds is dated to the day and belongs to a participant and habit of a challenge active that day. */
  lemma DailyOnlyActive(st: State, today: Time, faults: map<ChallengeId, int>)
    ensures var r := GenerateDailyTasks(st, today, faults).state.tasks;
            forall i :: |st.tasks| <= i < |r| ==>
              exists c :: c in st.challenges.rows && ChallengeRepository.IsActive(c, today) &&
                          GeneratedRow(r[i], c.id, c.habits, c.participantIds, StartOfDay(today))
  {
    var active := ChallengeRepository.FindActive(st.challenges.rows, today);
    GenerateAllSound(st.tasks, active, today, faults);
    var r := GenerateDailyTasks(st, today, faults).state.tasks;
    assert AddedFor(r, |st.tasks|, active, StartOfDay(today));
    forall i | |st.tasks| <= i < |r|
      ensures exists c :: c in st.challenges.rows && ChallengeRepository.IsActive(c, today) &&
                          GeneratedRow(r[i], c.id, c.habits, c.participantIds, StartOfDay(today))
    {
      assert GeneratedForSome(r[i], active, StartOfDay(today));
      var c :| c in active && GeneratedFor(r[i], c, StartOfDay(today));
      assert c in st.challenges.rows && ChallengeRepository.IsActive(c, today);
    }
  }

  /** No challenge active on `today` meets a failure that aborts its generation. */
  predicate NoActiveAborts(rows: seq<Challenge>, today: Time, faults: map<ChallengeId, int>) {
    forall c :: c in rows && ChallengeRepository.IsActive(c, today) ==> !TaskRepository.Aborts(FaultFor(faults, c.id))
  }

  /** Quantifying over the active challenges is quantifying over the query's result. */
  lemma NoActiveAbortsMeans(rows: seq<Challenge>, today: Time, faults: map<ChallengeId, int>)
    ensures NoActiveAborts(rows, today, faults) <==> NoneAborts(ChallengeRepository.FindActive(rows, today), faults)
  {
    var active := ChallengeRepository.FindActive(rows, today);
    if NoneAborts(active, faults) {
      forall c | c in rows && ChallengeRepository.IsActive(c, today)
        ensures !TaskRepository.Aborts(FaultFor(faults, c.id))
      {
        assert c in active;
        var k :| 0 <= k < |active| && active[k] == c;
      }
    }
    if NoActiveAborts(rows, today, faults) {
      forall k | 0 <= k < |active| ensures !TaskRepository.Aborts(FaultFor(faults, active[k].id)) {
        assert active[k] in active;
      }
    }
  }

  /**
   * The daily batch passes exactly when no active challenge's generation
   * aborts. Otherwise it reports the first aborting challenge's code, and the
   * active challenges before that one, and only they, got their tasks.
   */
  lemma DailyStops(st: State, today: Time, faults: map<ChallengeId, int>)
    ensures var r := GenerateDailyTasks(st, today, faults);
            var active := ChallengeRepository.FindActive(st.challenges.rows, today);
            var k := FirstAbort(active, faults);
            && (r.outcome.Pass? <==> NoActiveAborts(st.challenges.rows, today, faults))
            && (k < |active| ==> r.outcome == Fail(DatabaseError(faults[active[k].id])))
            && KeysOf(r.state.tasks) == KeysOf(st.tasks) + DailyKeys(active[..k], StartOfDay(today))
  {
    var active := ChallengeRepository.FindActive(st.challenges.rows, today);
    GenerateAllStops(st.tasks, active, today, faults);
    NoActiveAbortsMeans(st.challenges.rows, today, faults);
  }

  /** When no active challenge's generation aborts, every participant of every active challenge has each habit's task for the day. */
  lemma {:induction false} DailyCoversActive(st: State, today: Time, faults: map<ChallengeId, int>, c: Challenge, p: UserId, h: HabitEntry)
    requires UniqueKeys(st.tasks)
    requires NoActiveAborts(st.challenges.rows, today, faults)
    requires c in st.challenges.rows && ChallengeRepository.IsActive(c, today)
    requires p in c.participantIds && h in c.habits
    ensures var r := GenerateDailyTasks(st, today, faults);
            r.outcome.Pass? && ExactlyOnce(r.state.tasks, Key(c.id, p, h.habitId, StartOfDay(today)))
  {
    var active := ChallengeRepository.FindActive(st.challenges.rows, today);
    var k := Key(c.id, p, h.habitId, StartOfDay(today));
    DailyKeysHas(active, c, StartOfDay(today), k);
    NoActiveAbortsMeans(st.challenges.rows, today, faults);
    GenerateAllCovers(st.tasks, active, today, faults);
    UniqueMeansOnce(GenerateDailyTasks(st, today, faults).state.tasks, k);
  }

  lemma {:induction false} DailyKeysHas(cs: seq<Challenge>, c: Challenge, day: Time, k: Key)
    requires c in cs && k in ExpectedKeys(c.id, c.habits, c.participantIds, day)
    ensures k in DailyKeys(cs, day)
    decreases |cs|
  {
    if cs[0] != c {
      assert c in cs[1..];
      DailyKeysHas(cs[1..], c, day, k);
    }
  }

  /** Generation whose keys are all stored already writes nothing, unless its failure aborts. */
  lemma GenerateWhenPresent(rows: seq<Task>, c: Challenge, today: Time, fault: Option<int>)
    requires ExpectedKeys(c.id, c.habits, c.participantIds, StartOfDay(today)) <= KeysOf(rows)
    requires !TaskRepository.Aborts(fault)
    ensures GenerateTasks(rows, c.id, c.habits, today, c.participantIds, fault) == Ok(rows)
  {
    var cands := Candidates(c.id, c.habits, c.participantIds, StartOfDay(today));
    CandidateKeys(c.id, c.habits, c.participantIds, StartOfDay(today));
    TaskRepository.InsertAllPresent(rows, cands);
  }

  lemma {:induction false} GenerateAllWhenPresent(rows: seq<Task>, cs: seq<Challenge>, today: Time, faults: map<ChallengeId, int>)
    requires DailyKeys(cs, StartOfDay(today)) <= KeysOf(rows)
    requires NoneAborts(cs, faults)
    ensures GenerateAll(rows, cs, today, faults) == (rows, Pass)
    decreases |cs|
  {
    if cs != [] {
      assert !TaskRepository.Aborts(FaultFor(faults, cs[0].id));
      GenerateWhenPresent(rows, cs[0], today, FaultFor(faults, cs[0].id));
      assert NoneAborts(cs[1..], faults) by {
        forall j | 0 <= j < |cs[1..]| ensures !TaskRepository.Aborts(FaultFor(faults, cs[1..][j].id)) {
          assert cs[1..][j] == cs[j + 1];
        }
      }
      GenerateAllWhenPresent(rows, cs[1..], today, faults);
    }
  }

  /** The batch is the loop over the challenges active that day. */
  lemma DailyUnfold(st: State, today: Time, faults: map<ChallengeId, int>)
    ensures var g := GenerateAll(st.tasks, ChallengeRepository.FindActive(st.challenges.rows, today), today, faults);
            GenerateDailyTasks(st, today, faults) == Step(st.(tasks := g.0), g.1)
  {
  }

  /** When no active challenge's generation aborts, running the daily batch twice on the same day leaves the same state as running it once. */
  lemma DailyIdempotent(st: State, today: Time, faults: map<ChallengeId, int>)
    requires NoActiveAborts(st.challenges.rows, today, faults)
    ensures var once := GenerateDailyTasks(st, today, faults);
            GenerateDailyTasks(once.state, today, faults) == once
  {
    var active := ChallengeRepository.FindActive(st.challenges.rows, today);
    NoActiveAbortsMeans(st.challenges.rows, today, faults);
    var g := GenerateAll(st.tasks, active, today, faults);
    DailyUnfold(st, today, faults);
    var once := GenerateDailyTasks(st, today, faults);
    assert once.state.tasks == g.0 && once.state.challenges == st.challenges;
    GenerateAllCovers(st.tasks, active, today, faults);
    var covered := DailyKeys(active, StartOfDay(today));
    assert KeysOf(g.0) == KeysOf(st.tasks) + covered;
    GenerateAllWhenPresent(g.0, active, today, faults);
    DailyUnfold(once.state, today, faults);
    var again := GenerateDailyTasks(once.state, today, faults);
    assert again.state.tasks == once.state.tasks;
    assert again.state.challenges == once.state.challenges && again.state.points == once.state.points;
    assert again.state == once.state;
    assert ChallengeRepository.FindActive(once.state.challenges.rows, today) == active;
    assert again.outcome == GenerateAll(g.0, active, today, faults).1 == Pass;
    assert once.outcome == g.1 == Pass;
  }

  /** The daily batch keeps every invariant, whether it completes or stops at a failure. */
  lemma {:induction false} GenerateAllKeepsBalance(rows: seq<Task>, points: Ledger, cs: seq<Challenge>,
                                                  today: Time, faults: map<ChallengeId, int>)
    requires Balanced(rows, points) && forall t :: t in rows ==> CompletionStamped(t)
    ensures var r := GenerateAll(rows, cs, today, faults).0;
            Balanced(r, points) && forall t :: t in r ==> CompletionStamped(t)
    decreases |cs|
  {
    if cs != [] {
      var c := cs[0];
      var g := GenerateTasks(rows, c.id, c.habits, today, c.participantIds, FaultFor(faults, c.id));
      if g.Ok? {
        GenerateKeepsBalance(rows, points, c.id, c.habits, today, c.participantIds, FaultFor(faults, c.id));
        forall t | t in g.value ensures CompletionStamped(t) {
          var k :| 0 <= k < |g.value| && g.value[k] == t;
          if k < |rows| {
            assert rows[k] in rows;
          }
        }
        GenerateAllKeepsBalance(g.value, points, cs[1..], today, faults);
      }
    }
  }

  lemma DailyKeepsInv(st: State, today: Time, faults: map<ChallengeId, int>)
    requires Inv(st)
    ensures Inv(GenerateDailyTasks(st, today, faults).state)
  {
    var active := ChallengeRepository.FindActive(st.challenges.rows, today);
    GenerateAllKeepsBalance(st.tasks, st.points, active, today, faults);
  }

  /** Task completion, lifted to the whole state: challenges are untouched and every invariant survives. */
  function CompleteTask(st: State, id: nat, now: Time): (r: Reply<Task>)
    ensures r.state.challenges == st.challenges
    ensures r.result.Err? ==> r.state == st
    ensures Inv(st) ==> Inv(r.state)
  {
    var c := TaskService.CompleteTask(st.tasks, st.points, id, now);
    var r := Reply(st.(tasks := c.tasks, points := c.points), c.result);
    assert Inv(st) ==> Inv(r.state) by {
      if Inv(st) {
        CompleteKeepsInvariants(st.tasks, st.points, id, now);
      }
    }
    r
  }
}

=== FILE: clock.dfy ===
/**
 * Instants and calendar days. An instant is a count of milliseconds since the
 * epoch, and a calendar day is a fixed run of 86 400 000 of them. Time zones and
 * daylight-saving shifts are abstracted away.
 */
module Clock {

  type Time = int

  const MillisPerDay: int := 86_400_000

  /** The day number an instant falls in (Euclidean division floors toward minus infinity). */
  function DayOf(t: Time): int {
    t / MillisPerDay
  }

  /** The first millisecond of the day holding `t` (date-fns `startOfDay`). */
  function StartOfDay(t: Time): (r: Time)
    ensures r <= t < r + MillisPerDay
    ensures DayOf(r) == DayOf(t)
  {
    DayOf(t) * MillisPerDay
  }

  /** The last millisecond of the day holding `t` (date-fns `endOfDay`, 23:59:59.999). */
  function EndOfDay(t: Time): (r: Time)
    ensures StartOfDay(t) <= t <= r
    ensures r + 1 - StartOfDay(t) == MillisPerDay
  {
    StartOfDay(t) + MillisPerDay - 1
  }

  /** The inclusive window [startOfDay(d), endOfDay(d)] holds exactly the instants of the same day as `d`. */
  lemma DayWindow(d: Time, t: Time)
    ensures StartOfDay(d) <= t <= EndOfDay(d) <==> DayOf(t) == DayOf(d)
  {
    var q := DayOf(d);
    if StartOfDay(d) <= t <= EndOfDay(d) {
      assert q * MillisPerDay <= t < q * MillisPerDay + MillisPerDay;
    }
  }
}

=== FILE: create_challenge_dto.dfy ===
/**
 * The creation request and its boundary validation
 * (backend/src/modules/challenge/dto/create-challenge.dto.ts, challenge-habit.dto.ts,
 * requirement.dto.ts).
 */
module CreateChallengeDto {
  import opened Results
  import opened Clock
  import opened ChallengeSchema

  /**
   * The `startDate` text. An ISO 8601 string denotes an instant; any other text
   * fails `IsDateString`, and `new Date(text)` may still read an instant from it
   * or give an invalid date (`None`).
   */
  datatype DateString = Iso(at: Time) | NonIso(parsed: Option<Time>)

  /** What `new Date(text)` yields for the text. */
  function ParseDate(d: DateString): Option<Time> {
    match d
    case Iso(t) => Some(t)
    case NonIso(p) => p
  }

  datatype Dto = Dto(duration: real, startDate: DateString, mode: string, habits: seq<HabitEntry>)

  /** Members of the HabitId enum: the habit types the client sends as habit ids. */
  const HabitIds: set<string> := {"sleep", "hydrate", "eat", "breath", "read", "exercise", "write"}

  /** Members of the RequirementType enum. */
  const RequirementTypes: set<string> := {"hours", "glasses", "meals", "minutes"}

  const MinHabits: nat := 1
  const MaxHabits: nat := 7

  predicate IsInteger(x: real) {
    x.Floor as real == x
  }

  /** One broken rule; habit-level rules carry the index of the offending entry. */
  datatype Violation =
    | DurationNotInteger
    | DurationBelowOne
    | StartDateNotIso
    | ModeNotInEnum
    | TooFewHabits
    | TooManyHabits
    | HabitIdNotInEnum(index: nat)
    | RequirementTypeNotInEnum(index: nat)
    | RequirementValueNotInteger(index: nat)
    | RequirementValueBelowOne(index: nat)

  /** When each violation applies: the rule table the decorators on the request classes declare. */
  predicate Broken(dto: Dto, v: Violation) {
    match v
    case DurationNotInteger => !IsInteger(dto.duration)
    case DurationBelowOne => dto.duration < 1.0
    case StartDateNotIso => !dto.startDate.Iso?
    case ModeNotInEnum => ParseMode(dto.mode).None?
    case TooFewHabits => |dto.habits| < MinHabits
    case TooManyHabits => |dto.habits| > MaxHabits
    case HabitIdNotInEnum(i) => i < |dto.habits| && dto.habits[i].habitId !in HabitIds
    case RequirementTypeNotInEnum(i) => i < |dto.habits| && dto.habits[i].requirement.kind !in RequirementTypes
    case RequirementValueNotInteger(i) => i < |dto.habits| && !IsInteger(dto.habits[i].requirement.value)
    case RequirementValueBelowOne(i) => i < |dto.habits| && dto.habits[i].requirement.value < 1.0
  }

  predicate IsEnumRule(v: Violation) {
    v.HabitIdNotInEnum? || v.RequirementTypeNotInEnum?
  }

  predicate IsValueRule(v: Violation) {
    v.RequirementValueNotInteger? || v.RequirementValueBelowOne?
  }

  /** The rules on the request's own fields. */
  function FieldViolations(dto: Dto): (r: set<Violation>)
    ensures forall v :: v in r <==> !IsEnumRule(v) && !IsValueRule(v) && Broken(dto, v)
  {
    (if IsInteger(dto.duration) then {} else {DurationNotInteger})
    + (if dto.duration >= 1.0 then {} else {DurationBelowOne})
    + (if dto.startDate.Iso? then {} else {StartDateNotIso})
    + (if ParseMode(dto.mode).Some? then {} else {ModeNotInEnum})
    + (if |dto.habits| >= MinHabits then {} else {TooFewHabits})
    + (if |dto.habits| <= MaxHabits then {} else {TooManyHabits})
  }

  /** The enum rules on each nested habit entry (`ValidateNested` with `each: true`). */
  function EnumViolations(dto: Dto): (r: set<Violation>)
    ensures forall v :: v in r <==> IsEnumRule(v) && Broken(dto, v)
  {
    var hs := dto.habits;
    (set i: nat | i < |hs| && hs[i].habitId !in HabitIds :: HabitIdNotInEnum(i))
    + (set i: nat | i < |hs| && hs[i].requirement.kind !in RequirementTypes :: RequirementTypeNotInEnum(i))
  }

  /** The numeric rules on each nested requirement value (`IsInt`, `Min(1)`). */
  function ValueViolations(dto: Dto): (r: set<Violation>)
    ensures forall v :: v in r <==> IsValueRule(v) && Broken(dto, v)
  {
    var hs := dto.habits;
    (set i: nat | i < |hs| && !IsInteger(hs[i].requirement.value) :: RequirementValueNotInteger(i))
    + (set i: nat | i < |hs| && hs[i].requirement.value < 1.0 :: RequirementValueBelowOne(i))
  }

  /** Every rule the validator checks, collected (class-validator reports all failures, not the first). */
  function Validate(dto: Dto): (r: set<Violation>)
    ensures forall v :: v in r <==> Broken(dto, v)
  {
    FieldViolations(dto) + EnumViolations(dto) + ValueViolations(dto)
  }

  /** The request is accepted exactly when no rule is broken. */
  predicate Accepted(dto: Dto) {
    Validate(dto) == {}
  }

  /** An accepted request has an integral duration of at least one day, 1..7 habits, and the nested rules hold for each. */
  lemma AcceptedMeans(dto: Dto)
    requires Accepted(dto)
    ensures IsInteger(dto.duration) && dto.duration >= 1.0
    ensures dto.startDate.Iso? && ParseMode(dto.mode).Some?
    ensures MinHabits <= |dto.habits| <= MaxHabits
    ensures forall i :: 0 <= i < |dto.habits| ==>
              && dto.habits[i].habitId in HabitIds
              && dto.habits[i].requirement.kind in RequirementTypes
              && IsInteger(dto.habits[i].requirement.value)
              && dto.habits[i].requirement.value >= 1.0
  {
    var r := Validate(dto);
    assert !Broken(dto, DurationNotInteger) && !Broken(dto, DurationBelowOne);
    assert !Broken(dto, StartDateNotIso) && !Broken(dto, ModeNotInEnum);
    assert !Broken(dto, TooFewHabits) && !Broken(dto, TooManyHabits);
    forall i | 0 <= i < |dto.habits|
      ensures dto.habits[i].habitId in HabitIds
      ensures dto.habits[i].requirement.kind in RequirementTypes
      ensures IsInteger(dto.habits[i].requirement.value)
      ensures dto.habits[i].requirement.value >= 1.0
    {
      assert !Broken(dto, HabitIdNotInEnum(i)) && !Broken(dto, RequirementTypeNotInEnum(i));
      assert !Broken(dto, RequirementValueNotInteger(i)) && !Broken(dto, RequirementValueBelowOne(i));
    }
  }

  /** The document-schema rules, as they apply to the fields a creation request supplies. */
  predicate SchemaAdmits(dto: Dto) {
    && dto.duration >= 1.0
    && ParseDate(dto.startDate).Some?
    && ParseMode(dto.mode).Some?
    && forall i :: 0 <= i < |dto.habits| ==> HabitAdmitted(dto.habits[i])
  }

  /** A request that passes boundary validation is never refused by the document schema. */
  lemma AcceptedIsAdmitted(dto: Dto)
    requires Accepted(dto)
    ensures SchemaAdmits(dto)
  {
    AcceptedMeans(dto);
  }

  /** The converse fails: the schema alone has no upper bound on the habit list. */
  lemma AdmittedNotAccepted()
    ensures exists dto :: SchemaAdmits(dto) && !Accepted(dto)
  {
    var h := HabitEntry("sleep", Requirement("hours", 8.0));
    var dto := Dto(3.0, Iso(0), "solo", seq(8, _ => h));
    assert Broken(dto, TooManyHabits);
    assert SchemaAdmits(dto);
  }
}

=== FILE: decimal.dfy ===
/** Decimal text of integers, as template literals render them, and its reading back. */
module Decimal {

  predicate IsDigit(c: char) {
    '0' <= c <= '9'
  }

  predicate AllDigits(s: string) {
    forall i :: 0 <= i < |s| ==> IsDigit(s[i])
  }

  function DigitChar(d: nat): (c: char)
    requires d < 10
    ensures IsDigit(c) && c as int - '0' as int == d
  {
    ('0' as int + d) as char
  }

  /** The decimal digits of `n`, most significant first, with no leading zeros. */
  function NatToString(n: nat): (s: string)
    ensures |s| >= 1 && AllDigits(s)
    ensures |s| > 1 ==> s[0] != '0'
  {
    if n < 10 then [DigitChar(n)] else NatToString(n / 10) + [DigitChar(n % 10)]
  }

  /** The value of a digit string. */
  function DigitsValue(s: string): nat
    requires AllDigits(s)
  {
    if s == [] then 0 else DigitsValue(s[..|s| - 1]) * 10 + (s[|s| - 1] as int - '0' as int)
  }

  /** Rendering then reading a natural number gives it back. */
  lemma {:induction false} NatRoundTrip(n: nat)
    ensures DigitsValue(NatToString(n)) == n
  {
    if n >= 10 {
      var s := NatToString(n);
      assert s[..|s| - 1] == NatToString(n / 10);
      NatRoundTrip(n / 10);
    }
  }

  /** `${value}` for an integer: a minus sign before the digits of a negative value. */
  function IntToString(i: int): (s: string)
    ensures |s| >= 1
    ensures s[0] == '-' <==> i < 0
  {
    if i < 0 then "-" + NatToString(-i) else NatToString(i)
  }

  /** Reading an optionally signed digit string; anything else is not a number. */
  function ParseInt(s: string): (r: int) {
    if |s| > 1 && s[0] == '-' && AllDigits(s[1..]) then -(DigitsValue(s[1..]) as int)
    else if |s| > 0 && AllDigits(s) then DigitsValue(s)
    else 0
  }

  /** Rendering then reading an integer gives it back. */
  lemma IntRoundTrip(i: int)
    ensures ParseInt(IntToString(i)) == i
  {
    if i < 0 {
      var s := IntToString(i);
      assert s[1..] == NatToString(-i);
      NatRoundTrip(-i);
    } else {
      NatRoundTrip(i);
    }
  }

  /** Non-empty digit text denoting at least 1. */
  predicate IsPositiveNumeral(s: string) {
    |s| > 0 && AllDigits(s) && DigitsValue(s) >= 1
  }
}

=== FILE: failures.dfy ===
/** The failures the services surface. */
module Failures {

  /** The code the database reports when an insert violates a unique index. */
  const DuplicateKeyCode: int := 11000

  /** One case per `BadRequestException` the services throw, named after its message, and the database failures. */
  datatype Error =
    | ChallengeNotFound
    | UserAlreadyJoined
    | SoloChallengeFull
    | OneOnOneChallengeFull
    | TaskNotFound
    | TaskAlreadyCompleted
      /** The document schema refused the record on save. */
    | DocumentRejected
      /** Any other failure the database reports, with its code. */
    | DatabaseError(code: int)
}

=== FILE: habit_catalog.dfy ===
/**
 * The frontend's constant tables (frontend/lib/constants.ts): the seven habits
 * with their requirement options, the duration choices and the challenge modes.
 * Icons and descriptions are display text and are not modelled.
 */
module HabitCatalog {
  import opened Results
  import opened Decimal
  import opened ChallengeSchema
  import CreateChallengeDto

  datatype HabitType = Sleep | Hydrate | Eat | Breath | Read | Exercise | Write

  /** The string a habit type is written as, both in the frontend and as the backend habitId. */
  function TypeName(t: HabitType): string {
    match t
    case Sleep => "sleep"
    case Hydrate => "hydrate"
    case Eat => "eat"
    case Breath => "breath"
    case Read => "read"
    case Exercise => "exercise"
    case Write => "write"
  }

  datatype RequirementOption = RequirementOption(value: string, caption: string)

  datatype Habit = Habit(
    id: string,
    name: string,
    habitType: HabitType,
    requirementType: string,
    requirements: seq<RequirementOption>)

  function MinutesOptions(): seq<RequirementOption> {
    [RequirementOption("10", "10 mins"), RequirementOption("20", "20 mins"), RequirementOption("30", "30 mins")]
  }

  const Habits: seq<Habit> := [
    Habit("1", "Sleep", Sleep, "hours",
      [RequirementOption("6", "6 hrs"), RequirementOption("7", "7 hrs"), RequirementOption("8", "8 hrs")]),
    Habit("2", "Hydrate", Hydrate, "glasses",
      [RequirementOption("4", "4 glasses"), RequirementOption("8", "8 glasses"), RequirementOption("12", "12 glasses")]),
    Habit("3", "Eat", Eat, "meals",
      [RequirementOption("1", "1 Meal"), RequirementOption("2", "2 Meals"), RequirementOption("3", "3 Meals")]),
    Habit("4", "Breath", Breath, "minutes", MinutesOptions()),
    Habit("5", "Read", Read, "minutes", MinutesOptions()),
    Habit("6", "Exercise", Exercise, "minutes", MinutesOptions()),
    Habit("7", "Write", Write, "minutes", MinutesOptions())
  ]

  datatype DurationOption = DurationOption(value: int, caption: string)

  const DurationOptions: seq<DurationOption> := [
    DurationOption(3, "3 Days"), DurationOption(7, "7 Days"),
    DurationOption(14, "14 Days"), DurationOption(30, "30 Days")
  ]

  datatype ModeOption = ModeOption(value: string, caption: string)

  const ChallengeModes: seq<ModeOption> := [
    ModeOption("solo", "Solo Challenge"),
    ModeOption("one-on-one", "1v1 Challenge"),
    ModeOption("multiplayer", "Multiplayer Challenge")
  ]

  /** The first habit of `hs` with the given id (`Array.prototype.find`). */
  function FindIn(hs: seq<Habit>, id: string): (r: Option<Habit>)
    ensures r.None? <==> forall i :: 0 <= i < |hs| ==> hs[i].id != id
    ensures r.Some? ==> r.value.id == id && exists i :: 0 <= i < |hs| && hs[i] == r.value && (forall j :: 0 <= j < i ==> hs[j].id != id)
  {
    if hs == [] then None
    else if hs[0].id == id then Some(hs[0])
    else
      var r := FindIn(hs[1..], id);
      assert r.Some? ==> exists i :: 0 <= i < |hs[1..]| && hs[1..][i] == r.value && hs[i + 1] == r.value;
      r
  }

  function FindHabit(id: string): Option<Habit> {
    FindIn(Habits, id)
  }

  /** The catalog has seven habits with pairwise distinct ids and pairwise distinct types. */
  lemma HabitsDistinct()
    ensures |Habits| == 7
    ensures forall i, j :: 0 <= i < j < |Habits| ==> Habits[i].id != Habits[j].id
    ensures forall i, j :: 0 <= i < j < |Habits| ==> Habits[i].habitType != Habits[j].habitType
  {
  }

  /** The requirement values the catalog offers, each a positive numeral. */
  lemma OptionValuesPositive()
    ensures forall s :: s in ["1", "2", "3", "4", "6", "7", "8", "10", "12", "20", "30"] ==> IsPositiveNumeral(s)
  {
    assert IsPositiveNumeral("1") && IsPositiveNumeral("2") && IsPositiveNumeral("3");
    assert IsPositiveNumeral("4") && IsPositiveNumeral("6") && IsPositiveNumeral("7") && IsPositiveNumeral("8");
    assert IsPositiveNumeral("10") && IsPositiveNumeral("12") && IsPositiveNumeral("20") && IsPositiveNumeral("30");
  }

  /** Every habit offers exactly three requirement options, each a positive numeral. */
  lemma HabitsOptions()
    ensures forall h :: h in Habits ==> |h.requirements| == 3
    ensures forall h, o :: h in Habits && o in h.requirements ==> IsPositiveNumeral(o.value)
  {
    OptionValuesPositive();
    forall h, o | h in Habits && o in h.requirements
      ensures o.value in ["1", "2", "3", "4", "6", "7", "8", "10", "12", "20", "30"]
    {
    }
  }

  /** Every habit type has an entry in the table; `HabitsDistinct` makes that entry the only one. */
  lemma EveryTypeListed(t: HabitType)
    ensures exists i :: 0 <= i < |Habits| && Habits[i].habitType == t
  {
    match t
    case Sleep => assert Habits[0].habitType == t;
    case Hydrate => assert Habits[1].habitType == t;
    case Eat => assert Habits[2].habitType == t;
    case Breath => assert Habits[3].habitType == t;
    case Read => assert Habits[4].habitType == t;
    case Exercise => assert Habits[5].habitType == t;
    case Write => assert Habits[6].habitType == t;
  }

  /** In a table with distinct ids, looking up an entry's id finds that entry. */
  lemma {:induction false} FindInDistinct(hs: seq<Habit>, i: nat)
    requires i < |hs|
    requires forall a, b :: 0 <= a < b < |hs| ==> hs[a].id != hs[b].id
    ensures FindIn(hs, hs[i].id) == Some(hs[i])
  {
    if i > 0 {
      assert hs[1..][i - 1] == hs[i];
      FindInDistinct(hs[1..], i - 1);
    }
  }

  /** Looking a listed habit up by its id finds exactly that habit. */
  lemma FindHabitExact(i: nat)
    requires i < |Habits|
    ensures FindHabit(Habits[i].id) == Some(Habits[i])
  {
    HabitsDistinct();
    FindInDistinct(Habits, i);
  }

  /** Every habit type is a habit id the backend admits. */
  lemma TypeNamesAdmitted(t: HabitType)
    ensures TypeName(t) in CreateChallengeDto.HabitIds
  {
  }

  /**
   * What the table offers is what the backend validation admits: every
   * requirement type is a backend type, and every option value is a positive
   * integer, so it meets `Min(1)`.
   */
  lemma CatalogAgreesWithBackend(h: Habit, o: RequirementOption)
    requires h in Habits && o in h.requirements
    ensures TypeName(h.habitType) in CreateChallengeDto.HabitIds
    ensures h.requirementType in CreateChallengeDto.RequirementTypes
    ensures DigitsValue(o.value) >= 1
  {
    HabitsOptions();
  }

  /** Every duration choice is at least the backend's minimum of one day. */
  lemma DurationsAdmitted()
    ensures forall d :: d in DurationOptions ==> d.value >= 1
  {
  }

  /** The mode choices are exactly the backend's mode names, in declaration order. */
  lemma ModesMatchBackend()
    ensures |ChallengeModes| == 3
    ensures ChallengeModes[0].value == ModeName(Solo)
    ensures ChallengeModes[1].value == ModeName(OneOnOne)
    ensures ChallengeModes[2].value == ModeName(Multiplayer)
    ensures forall m :: m in ChallengeModes ==> ParseMode(m.value).Some?
  {
  }
}

=== FILE: habit_selection.dfy ===
/**
 * The habit step of the challenge wizard (frontend/app/challenge/create/page.tsx):
 * toggling a habit either records it with the chosen requirement or updates
 * the requirement of the entry already there.
 */
module HabitSelection {
  import opened Results
  import opened HabitCatalog

  datatype SelectedHabit = SelectedHabit(habitId: string, habitType: HabitType, requirement: string)

  /** The position of the first entry for `habitId` (`Array.prototype.findIndex`, with -1 as None). */
  function IndexOf(sel: seq<SelectedHabit>, habitId: string): (r: Option<nat>)
    ensures r.None? <==> forall i :: 0 <= i < |sel| ==> sel[i].habitId != habitId
    ensures r.Some? ==> r.value < |sel| && sel[r.value].habitId == habitId
    ensures r.Some? ==> forall j :: 0 <= j < r.value ==> sel[j].habitId != habitId
  {
    if sel == [] then None
    else if sel[0].habitId == habitId then Some(0)
    else
      match IndexOf(sel[1..], habitId)
      case None => None
      case Some(k) => Some(k + 1)
  }

  /** The toggle handler: an unknown id is ignored, a selected one is updated in place, a new one is appended. */
  function ToggleHabit(sel: seq<SelectedHabit>, habitId: string, requirement: string): (r: seq<SelectedHabit>)
    ensures FindHabit(habitId).None? ==> r == sel
    ensures FindHabit(habitId).Some? && IndexOf(sel, habitId).Some? ==>
      var k := IndexOf(sel, habitId).value;
      |r| == |sel| && r[k] == SelectedHabit(habitId, FindHabit(habitId).value.habitType, requirement)
      && forall j :: 0 <= j < |sel| && j != k ==> r[j] == sel[j]
    ensures FindHabit(habitId).Some? && IndexOf(sel, habitId).None? ==>
      |r| == |sel| + 1 && r[..|sel|] == sel
      && r[|sel|] == SelectedHabit(habitId, FindHabit(habitId).value.habitType, requirement)
  {
    match FindHabit(habitId)
    case None => sel
    case Some(habit) =>
      var entry := SelectedHabit(habitId, habit.habitType, requirement);
      match IndexOf(sel, habitId)
      case Some(k) => sel[k := entry]
      case None => sel + [entry]
  }

  /** No habit is selected twice. */
  predicate DistinctIds(sel: seq<SelectedHabit>) {
    forall i, j :: 0 <= i < j < |sel| ==> sel[i].habitId != sel[j].habitId
  }

  /** Every entry is a catalog habit, carrying that habit's type. */
  predicate TypesFromCatalog(sel: seq<SelectedHabit>) {
    forall i :: 0 <= i < |sel| ==>
      FindHabit(sel[i].habitId).Some? && FindHabit(sel[i].habitId).value.habitType == sel[i].habitType
  }

  /** The requirement chosen for `habitId`, if it is selected. */
  function RequirementOf(sel: seq<SelectedHabit>, habitId: string): Option<string> {
    match IndexOf(sel, habitId)
    case None => None
    case Some(k) => Some(sel[k].requirement)
  }

  /** Toggling never selects a habit twice. */
  lemma ToggleKeepsDistinct(sel: seq<SelectedHabit>, habitId: string, requirement: string)
    requires DistinctIds(sel)
    ensures DistinctIds(ToggleHabit(sel, habitId, requirement))
  {
    var r := ToggleHabit(sel, habitId, requirement);
    if FindHabit(habitId).Some? && IndexOf(sel, habitId).None? {
      forall i, j | 0 <= i < j < |r|
        ensures r[i].habitId != r[j].habitId
      {
        if j == |sel| {
          assert r[i] == sel[i];
        } else {
          assert r[i] == sel[i] && r[j] == sel[j];
        }
      }
    }
  }

  /** Toggling keeps every entry's type equal to its catalog habit's type. */
  lemma ToggleKeepsTypes(sel: seq<SelectedHabit>, habitId: string, requirement: string)
    requires TypesFromCatalog(sel)
    ensures TypesFromCatalog(ToggleHabit(sel, habitId, requirement))
  {
  }

  /**
   * The selection behaves as a map from catalog habit to requirement: after a
   * toggle the toggled habit maps to the new requirement and every other
   * habit keeps what it had.
   */
  lemma ToggleUpserts(sel: seq<SelectedHabit>, habitId: string, requirement: string, other: string)
    requires DistinctIds(sel)
    requires other != habitId
    ensures FindHabit(habitId).Some? ==> RequirementOf(ToggleHabit(sel, habitId, requirement), habitId) == Some(requirement)
    ensures FindHabit(habitId).None? ==> RequirementOf(ToggleHabit(sel, habitId, requirement), habitId) == RequirementOf(sel, habitId)
    ensures RequirementOf(ToggleHabit(sel, habitId, requirement), other) == RequirementOf(sel, other)
  {
    var r := ToggleHabit(sel, habitId, requirement);
    ToggleKeepsDistinct(sel, habitId, requirement);
    IndexUnique(r, habitId);
    IndexUnique(r, other);
    IndexUnique(sel, other);
  }

  /** With distinct ids, the index of an id is the only position holding it. */
  lemma IndexUnique(sel: seq<SelectedHabit>, habitId: string)
    requires DistinctIds(sel)
    ensures forall i :: 0 <= i < |sel| && sel[i].habitId == habitId ==> IndexOf(sel, habitId) == Some(i)
  {
  }

  /** Toggling the same habit with the same requirement twice is the same as once. */
  lemma ToggleIdempotent(sel: seq<SelectedHabit>, habitId: string, requirement: string)
    ensures ToggleHabit(ToggleHabit(sel, habitId, requirement), habitId, requirement) == ToggleHabit(sel, habitId, requirement)
  {
  }
}

=== FILE: results.dfy ===
/** Success/failure values shared by every layer of the model. */
module Results {

  /** The usual Some/None wrapper, used for lookups that may find nothing. */
  datatype Option<+T> = None | Some(value: T)

  /** The outcome of an operation that produces no value: it passes or fails with an error. */
  datatype Outcome<+E> = Pass | Fail(error: E)

  /** The outcome of an operation that either produces a value or fails with an error. */
  datatype Result<+T, +E> = Ok(value: T) | Err(error: E)
}

=== FILE: task_repository.dfy ===
/**
 * The task collection (backend/src/modules/task/schema/task.repository.ts).
 * Tasks are never deleted, so a task's id is its position in the collection.
 */
module TaskRepository {
  import opened Results
  import opened Clock
  import opened Failures
  import opened ChallengeSchema
  import opened TaskSchema

  type TaskId = nat

  /**
   * Insert one row unless the unique index already holds its key: the stored
   * rows are untouched, at most the row itself is added, and it is refused
   * exactly when its key is already indexed.
   */
  function InsertOne(rows: seq<Task>, t: Task): (r: seq<Task>)
    ensures rows <= r && |r| <= |rows| + 1
    ensures |r| == |rows| + 1 ==> r[|rows|] == t
    ensures |r| == |rows| <==> KeyOf(t) in KeysOf(rows)
  {
    if KeyOf(t) in KeysOf(rows) then rows else rows + [t]
  }

  /**
   * What a single insert does to the index: the stored rows stay as they are,
   * the row's key is indexed afterwards, and the index stays unique.
   */
  lemma InsertOneKeys(rows: seq<Task>, t: Task)
    ensures var r := InsertOne(rows, t);
            && rows <= r
            && KeysOf(r) == KeysOf(rows) + {KeyOf(t)}
            && (UniqueKeys(rows) ==> UniqueKeys(r))
  {
    KeysOfAppend(rows, [t]);
    if UniqueKeys(rows) && KeyOf(t) !in KeysOf(rows) {
      forall i | 0 <= i < |rows| ensures KeyOf(rows[i]) != KeyOf(t) {
        assert rows[i] in rows;
      }
    }
  }

  /** The candidate at position `k` collides with a stored key or with an earlier candidate. */
  predicate Conflicts(rows: seq<Task>, cands: seq<Task>, k: nat)
    requires k < |cands|
  {
    KeyOf(cands[k]) in KeysOf(rows) + KeysOf(cands[..k])
  }

  /**
   * An unordered batch insert: each candidate is tried in turn, a candidate whose
   * key is already taken is dropped, and the rest of the batch still goes in.
   */
  function InsertAll(rows: seq<Task>, cands: seq<Task>): (r: seq<Task>)
    ensures rows <= r
    ensures KeysOf(r) == KeysOf(rows) + KeysOf(cands)
    ensures UniqueKeys(rows) ==> UniqueKeys(r)
    ensures forall i :: |rows| <= i < |r| ==> r[i] in cands
    ensures |r| <= |rows| + |cands|
    decreases |cands|
  {
    if cands == [] then rows
    else
      var next := InsertOne(rows, cands[0]);
      var r := InsertAll(next, cands[1..]);
      InsertAllCompose(rows, cands, next, r);
      r
  }

  /** The facts about one tried candidate and the rest of the batch combine into the facts about the whole batch. */
  lemma InsertAllCompose(rows: seq<Task>, cands: seq<Task>, next: seq<Task>, r: seq<Task>)
    requires cands != [] && next == InsertOne(rows, cands[0])
    requires next <= r && KeysOf(r) == KeysOf(next) + KeysOf(cands[1..])
    requires UniqueKeys(next) ==> UniqueKeys(r)
    requires forall i :: |next| <= i < |r| ==> r[i] in cands[1..]
    requires |r| <= |next| + |cands[1..]|
    ensures rows <= r && KeysOf(r) == KeysOf(rows) + KeysOf(cands)
    ensures UniqueKeys(rows) ==> UniqueKeys(r)
    ensures forall i :: |rows| <= i < |r| ==> r[i] in cands
    ensures |r| <= |rows| + |cands|
  {
    InsertOneKeys(rows, cands[0]);
    assert cands == [cands[0]] + cands[1..];
    KeysOfAppend([cands[0]], cands[1..]);
    forall i | |rows| <= i < |r| ensures r[i] in cands {
      if i < |next| {
        assert r[i] == next[i] == cands[0];
      } else {
        assert r[i] in cands[1..];
      }
    }
  }

  /** One step of the batch: the first candidate is tried, then the rest. */
  lemma InsertAllStep(rows: seq<Task>, cands: seq<Task>)
    requires cands != []
    ensures InsertAll(rows, cands) == InsertAll(InsertOne(rows, cands[0]), cands[1..])
  {
  }

  /** A first candidate whose key is new is stored, whatever the rest of the batch does. */
  lemma FirstCandidateInserted(rows: seq<Task>, cands: seq<Task>)
    requires cands != [] && !Conflicts(rows, cands, 0)
    ensures cands[0] in InsertAll(rows, cands)
  {
    assert KeyOf(cands[0]) !in KeysOf(rows) by {
      assert cands[..0] == [];
      assert KeysOf(rows) + KeysOf(cands[..0]) == KeysOf(rows);
    }
    var next := InsertOne(rows, cands[0]);
    InsertAllStep(rows, cands);
    var r := InsertAll(next, cands[1..]);
    assert next <= r;
    assert r[|rows|] == next[|rows|] == cands[0];
  }

  /** Every candidate that conflicts with nothing is inserted, whatever other candidates of the batch do. */
  lemma {:induction false} NonConflictingInserted(rows: seq<Task>, cands: seq<Task>, k: nat)
    requires k < |cands| && !Conflicts(rows, cands, k)
    ensures cands[k] in InsertAll(rows, cands)
    decreases |cands|
  {
    if k == 0 {
      FirstCandidateInserted(rows, cands);
    } else {
      var next := InsertOne(rows, cands[0]);
      var r := InsertAll(next, cands[1..]);
      InsertAllStep(rows, cands);
      assert InsertAll(rows, cands) == r;
      FreeAfterFirst(rows, cands, k);
      NonConflictingInserted(next, cands[1..], k - 1);
      assert cands[1..][k - 1] == cands[k];
    }
  }

  /** A later candidate free of conflicts stays free once the first candidate was tried. */
  lemma FreeAfterFirst(rows: seq<Task>, cands: seq<Task>, k: nat)
    requires 1 <= k < |cands| && !Conflicts(rows, cands, k)
    ensures !Conflicts(InsertOne(rows, cands[0]), cands[1..], k - 1)
  {
    ConflictsShift(rows, cands, k);
    InsertOneKeys(rows, cands[0]);
    KeysOfAppend(rows, [cands[0]]);
  }

  /** A batch whose every key is already stored changes nothing. */
  lemma {:induction false} InsertAllPresent(rows: seq<Task>, cands: seq<Task>)
    requires KeysOf(cands) <= KeysOf(rows)
    ensures InsertAll(rows, cands) == rows
    decreases |cands|
  {
    if cands != [] {
      assert cands[0] in cands;
      assert KeyOf(cands[0]) in KeysOf(rows);
      KeysOfAppend([cands[0]], cands[1..]);
      assert cands == [cands[0]] + cands[1..];
      InsertAllPresent(rows, cands[1..]);
    }
  }

  /** Repeating a batch insert is a no-op: the second pass finds every key taken. */
  lemma InsertAllIdempotent(rows: seq<Task>, cands: seq<Task>)
    ensures InsertAll(InsertAll(rows, cands), cands) == InsertAll(rows, cands)
  {
    InsertAllPresent(InsertAll(rows, cands), cands);
  }

  /** The outcome of `insertMany`: the collection afterwards and the code of the error it reports, if any. */
  datatype BulkWrite = BulkWrite(rows: seq<Task>, errorCode: Option<int>)

  /** A failure the database reports for the batch independently of the unique index. */
  predicate Aborts(fault: Option<int>) {
    fault.Some? && fault.value != DuplicateKeyCode
  }

  /**
   * `createMany` (`insertMany` with `ordered: false`). A failure other than a
   * duplicate key aborts the batch before any row is written. Otherwise the
   * non-conflicting rows are inserted and the duplicate-key code is reported
   * when some row was dropped; the duplicate-key report comes from the batch
   * itself, so a `fault` carrying that code adds nothing to it.
   */
  function CreateMany(rows: seq<Task>, cands: seq<Task>, fault: Option<int>): (w: BulkWrite)
    ensures Aborts(fault) ==> w == BulkWrite(rows, fault)
    ensures !Aborts(fault) ==> w.rows == InsertAll(rows, cands)
    ensures !Aborts(fault) ==> (w.errorCode.None? <==> |w.rows| == |rows| + |cands|)
    ensures !Aborts(fault) && w.errorCode.Some? ==> w.errorCode.value == DuplicateKeyCode
  {
    if Aborts(fault) then BulkWrite(rows, fault)
    else
      var r := InsertAll(rows, cands);
      BulkWrite(r, if |r| < |rows| + |cands| then Some(DuplicateKeyCode) else None)
  }

  /** After a first candidate went in, the conflicts of the rest of the batch are seen from the grown collection. */
  lemma ConflictsShift(rows: seq<Task>, cands: seq<Task>, k: nat)
    requires 1 <= k < |cands|
    ensures Conflicts(rows, cands, k) <==> Conflicts(rows + [cands[0]], cands[1..], k - 1)
  {
    KeysOfAppend(rows, [cands[0]]);
    assert cands[..k] == [cands[0]] + cands[1..][..k - 1];
    KeysOfAppend([cands[0]], cands[1..][..k - 1]);
    assert cands[1..][k - 1] == cands[k];
  }

  /** A batch is reported as clean exactly when none of its candidates conflicts. */
  lemma {:induction false} CleanBatchHasNoConflicts(rows: seq<Task>, cands: seq<Task>)
    ensures |InsertAll(rows, cands)| == |rows| + |cands| <==>
              forall k :: 0 <= k < |cands| ==> !Conflicts(rows, cands, k)
    decreases |cands|
  {
    if cands != [] {
      var next := InsertOne(rows, cands[0]);
      assert cands[..0] == [];
      if next == rows {
        assert Conflicts(rows, cands, 0);
      } else {
        CleanBatchHasNoConflicts(next, cands[1..]);
        forall k | 1 <= k < |cands|
          ensures Conflicts(rows, cands, k) <==> Conflicts(next, cands[1..], k - 1)
        {
          ConflictsShift(rows, cands, k);
        }
        if forall k :: 0 <= k < |cands| ==> !Conflicts(rows, cands, k) {
          forall k' | 0 <= k' < |cands[1..]| ensures !Conflicts(next, cands[1..], k') {
            assert !Conflicts(rows, cands, k' + 1);
          }
        }
      }
    }
  }

  /** `findById`: the task stored under an id, if any. */
  function FindById(rows: seq<Task>, id: TaskId): (r: Option<Task>)
    ensures r.Some? <==> id < |rows|
    ensures r.Some? ==> r.value == rows[id]
  {
    if id < |rows| then Some(rows[id]) else None
  }

  /** Ids are stable: a collection that only grew still finds every earlier task under its id. */
  lemma FindByIdStable(rows: seq<Task>, grown: seq<Task>, id: TaskId)
    requires rows <= grown && id < |rows|
    ensures FindById(grown, id) == FindById(rows, id)
  {
  }

  /** Inserting a batch keeps every task findable under its id. */
  lemma InsertKeepsIds(rows: seq<Task>, cands: seq<Task>, id: TaskId)
    requires id < |rows|
    ensures FindById(InsertAll(rows, cands), id) == Some(rows[id])
  {
    FindByIdStable(rows, InsertAll(rows, cands), id);
  }

  /**
   * `markComplete` (`findByIdAndUpdate` returning the new document): set the flag
   * and the timestamp on one task. A missing id yields no document and no change.
   */
  function MarkComplete(rows: seq<Task>, id: TaskId, now: Time): (r: (seq<Task>, Option<Task>))
    ensures id >= |rows| ==> r == (rows, None)
    ensures id < |rows| ==> && |r.0| == |rows|
                            && r.1 == Some(r.0[id])
                            && r.0[id].isCompleted && r.0[id].completedAt == Some(now)
                            && KeyOf(r.0[id]) == KeyOf(rows[id]) && r.0[id].points == rows[id].points
                            && forall i :: 0 <= i < |rows| && i != id ==> r.0[i] == rows[i]
  {
    if id < |rows| then
      var t := rows[id].(isCompleted := true, completedAt := Some(now));
      (rows[id := t], Some(t))
    else (rows, None)
  }

  /**
   * The document `markComplete` returns (`new: true`) is the one stored afterwards,
   * and it is found under the same id; every other id finds what it found before.
   */
  lemma MarkCompleteThenFind(rows: seq<Task>, id: TaskId, now: Time, other: TaskId)
    requires other != id
    ensures var (rows', returned) := MarkComplete(rows, id, now);
            FindById(rows', id) == returned
            && FindById(rows', other) == FindById(rows, other)
  {
  }

  /** Marking a task complete leaves every key in place, so the unique index still holds. */
  lemma MarkCompleteKeepsKeys(rows: seq<Task>, id: TaskId, now: Time)
    requires UniqueKeys(rows)
    ensures UniqueKeys(MarkComplete(rows, id, now).0)
    ensures KeysOf(MarkComplete(rows, id, now).0) == KeysOf(rows)
  {
    var r := MarkComplete(rows, id, now).0;
    assert forall i :: 0 <= i < |rows| ==> KeyOf(r[i]) == KeyOf(rows[i]);
    forall k | k in KeysOf(r) ensures k in KeysOf(rows) {
      var t :| t in r && KeyOf(t) == k;
      var i :| 0 <= i < |r| && r[i] == t;
      assert rows[i] in rows;
    }
    forall k | k in KeysOf(rows) ensures k in KeysOf(r) {
      var t :| t in rows && KeyOf(t) == k;
      var i :| 0 <= i < |rows| && rows[i] == t;
      assert r[i] in r;
    }
  }

  /** The user's task falls in the inclusive window [startOfDay(date), endOfDay(date)]. */
  predicate InDailyWindow(t: Task, userId: UserId, date: Time) {
    t.userId == userId && StartOfDay(date) <= t.date <= EndOfDay(date)
  }

  function Scan(rows: seq<Task>, userId: UserId, date: Time, from: nat): (r: seq<TaskId>)
    requires from <= |rows|
    ensures forall i: nat :: i in r <==> from <= i < |rows| && InDailyWindow(rows[i], userId, date)
    ensures forall a, b :: 0 <= a < b < |r| ==> r[a] < r[b]
    decreases |rows| - from
  {
    if from == |rows| then []
    else
      var rest := Scan(rows, userId, date, from + 1);
      assert forall i :: i in rest ==> from < i;
      if InDailyWindow(rows[from], userId, date) then
        var r := [from] + rest;
        assert forall b :: 0 < b < |r| ==> r[b] == rest[b - 1] && rest[b - 1] in rest;
        r
      else rest
  }

  /** `findByUserAndDate`: the ids, in collection order, of the user's tasks within the day of `date`. */
  function FindByUserAndDate(rows: seq<Task>, userId: UserId, date: Time): (r: seq<TaskId>)
    ensures forall i: nat :: i in r <==> i < |rows| && rows[i].userId == userId && DayOf(rows[i].date) == DayOf(date)
    ensures forall a, b :: 0 <= a < b < |r| ==> r[a] < r[b]
    ensures forall k :: 0 <= k < |r| ==> r[k] < |rows|
  {
    forall i | 0 <= i < |rows| ensures InDailyWindow(rows[i], userId, date) <==>
        rows[i].userId == userId && DayOf(rows[i].date) == DayOf(date) {
      DayWindow(date, rows[i].date);
    }
    var r := Scan(rows, userId, date, 0);
    assert forall k :: 0 <= k < |r| ==> r[k] in r;
    r
  }
}

=== FILE: task_schema.dfy ===
/**
 * The stored Task record and its unique index
 * (backend/src/modules/task/schema/task.schema.ts).
 */
module TaskSchema {
  import opened Results
  import opened Clock
  import opened ChallengeSchema

  /**
   * One task: a habit a participant owes on one day. Every field but
   * `completedAt` is required; `isCompleted` defaults to false.
   */
  datatype Task = Task(
    challengeId: ChallengeId,
    userId: UserId,
    habitId: string,
    date: Time,
    points: int,
    isCompleted: bool,
    completedAt: Option<Time>)

  /** The fields of the unique index (challengeId, userId, habitId, date). */
  datatype Key = Key(challengeId: ChallengeId, userId: UserId, habitId: string, date: Time)

  function KeyOf(t: Task): Key {
    Key(t.challengeId, t.userId, t.habitId, t.date)
  }

  /** A task as the model constructs it from the required fields, with the schema defaults filled in. */
  function NewTask(challengeId: ChallengeId, userId: UserId, habitId: string, date: Time, points: int): (t: Task)
    ensures KeyOf(t) == Key(challengeId, userId, habitId, date) && t.points == points
    ensures !t.isCompleted && t.completedAt.None?
    ensures CompletionStamped(t)
  {
    Task(challengeId, userId, habitId, date, points, false, None)
  }

  /** The completion timestamp is present exactly when the task is completed. */
  predicate CompletionStamped(t: Task) {
    t.isCompleted <==> t.completedAt.Some?
  }

  function KeysOf(rows: seq<Task>): set<Key> {
    set t | t in rows :: KeyOf(t)
  }

  /** What the unique index guarantees: no two stored tasks share a key. */
  predicate UniqueKeys(rows: seq<Task>) {
    forall i, j :: 0 <= i < j < |rows| ==> KeyOf(rows[i]) != KeyOf(rows[j])
  }

  /** The key is carried by exactly one stored task. */
  predicate ExactlyOnce(rows: seq<Task>, k: Key) {
    && k in KeysOf(rows)
    && forall i, j :: 0 <= i < |rows| && 0 <= j < |rows| && KeyOf(rows[i]) == k && KeyOf(rows[j]) == k ==> i == j
  }

  /** Under the unique index, every key present is present exactly once. */
  lemma UniqueMeansOnce(rows: seq<Task>, k: Key)
    requires UniqueKeys(rows) && k in KeysOf(rows)
    ensures ExactlyOnce(rows, k)
  {
  }

  lemma KeysOfAppend(a: seq<Task>, b: seq<Task>)
    ensures KeysOf(a + b) == KeysOf(a) + KeysOf(b)
  {
    forall k | k in KeysOf(a + b) ensures k in KeysOf(a) + KeysOf(b) {
      var t :| t in a + b && KeyOf(t) == k;
    }
    forall k | k in KeysOf(a) + KeysOf(b) ensures k in KeysOf(a + b) {
      if k in KeysOf(a) {
        var t :| t in a && KeyOf(t) == k;
        assert t in a + b;
      } else {
        var t :| t in b && KeyOf(t) == k;
        assert t in a + b;
      }
    }
  }
}

=== FILE: task_service.dfy ===
/**
 * Task generation, completion and the daily queries
 * (backend/src/modules/task/task.service.ts).
 */
module TaskService {
  import opened Results
  import opened Clock
  import opened Failures
  import opened ChallengeSchema
  import opened TaskSchema
  import opened TaskRepository
  import opened UserPoints

  function HabitIdsOf(habits: seq<HabitEntry>): set<string> {
    set h | h in habits :: h.habitId
  }

  /** The row every generated task starts as: one point, not completed, dated to the start of the day. */
  predicate GeneratedRow(t: Task, challengeId: ChallengeId, habits: seq<HabitEntry>, participants: seq<UserId>, day: Time) {
    && t.challengeId == challengeId
    && t.userId in participants
    && t.habitId in HabitIdsOf(habits)
    && t.date == day
    && t.points == 1
    && !t.isCompleted
    && t.completedAt.None?
  }

  /** The index keys generation is meant to cover: one per participant and habit. */
  function ExpectedKeys(challengeId: ChallengeId, habits: seq<HabitEntry>, participants: seq<UserId>, day: Time): set<Key> {
    set p, h | p in participants && h in habits :: Key(challengeId, p, h.habitId, day)
  }

  /** One participant's rows, one per habit in habit order. */
  function RowsFor(challengeId: ChallengeId, userId: UserId, habits: seq<HabitEntry>, day: Time): (r: seq<Task>)
    ensures |r| == |habits|
    ensures forall j :: 0 <= j < |habits| ==> r[j] == NewTask(challengeId, userId, habits[j].habitId, day, 1)
  {
    seq(|habits|, j requires 0 <= j < |habits| => NewTask(challengeId, userId, habits[j].habitId, day, 1))
  }

  /** The rows to insert: participants in order, and for each of them every habit in order (`flatMap` of `map`). */
  function Candidates(challengeId: ChallengeId, habits: seq<HabitEntry>, participants: seq<UserId>, day: Time): (r: seq<Task>)
    ensures |r| == |participants| * |habits|
    ensures forall t :: t in r ==> GeneratedRow(t, challengeId, habits, participants, day)
  {
    if participants == [] then []
    else
      var head := RowsFor(challengeId, participants[0], habits, day);
      var tail := Candidates(challengeId, habits, participants[1..], day);
      var r := head + tail;
      assert |r| == |habits| + (|participants| - 1) * |habits|;
      forall t | t in r ensures GeneratedRow(t, challengeId, habits, participants, day) {
        if t in head {
          var j :| 0 <= j < |head| && head[j] == t;
          assert habits[j] in habits;
        } else {
          assert t in tail;
        }
      }
      r
  }

  /** The candidate rows carry exactly the expected keys: every (participant, habit) pair and nothing else. */
  lemma {:induction false} CandidateKeys(challengeId: ChallengeId, habits: seq<HabitEntry>, participants: seq<UserId>, day: Time)
    ensures KeysOf(Candidates(challengeId, habits, participants, day)) == ExpectedKeys(challengeId, habits, participants, day)
  {
    if participants != [] {
      var p := participants[0];
      var head := RowsFor(challengeId, p, habits, day);
      var tail := Candidates(challengeId, habits, participants[1..], day);
      CandidateKeys(challengeId, habits, participants[1..], day);
      KeysOfAppend(head, tail);
      var headKeys := set h | h in habits :: Key(challengeId, p, h.habitId, day);
      assert KeysOf(head) == headKeys by {
        forall k | k in headKeys ensures k in KeysOf(head) {
          var h :| h in habits && k == Key(challengeId, p, h.habitId, day);
          var j :| 0 <= j < |habits| && habits[j] == h;
          assert head[j] in head;
        }
      }
      var all := ExpectedKeys(challengeId, habits, participants, day);
      var rest := ExpectedKeys(challengeId, habits, participants[1..], day);
      assert all == headKeys + rest by {
        forall k | k in all ensures k in headKeys + rest {
          var q, h :| q in participants && h in habits && k == Key(challengeId, q, h.habitId, day);
          if q != p {
            assert q in participants[1..];
          }
        }
        forall k | k in headKeys ensures k in all {
          var h :| h in habits && k == Key(challengeId, p, h.habitId, day);
          assert p in participants;
        }
        forall k | k in rest ensures k in all {
          var q, h :| q in participants[1..] && h in habits && k == Key(challengeId, q, h.habitId, day);
          assert q in participants;
        }
      }
    }
  }

  /** Row `i * |habits| + j` is participant `i`'s row for habit `j`, so there is one row per pair. */
  lemma {:induction false} CandidatesLayout(challengeId: ChallengeId, habits: seq<HabitEntry>, participants: seq<UserId>,
                                           day: Time, i: nat, j: nat)
    requires i < |participants| && j < |habits|
    ensures i * |habits| + j < |Candidates(challengeId, habits, participants, day)|
    ensures Candidates(challengeId, habits, participants, day)[i * |habits| + j]
            == NewTask(challengeId, participants[i], habits[j].habitId, day, 1)
  {
    var head := RowsFor(challengeId, participants[0], habits, day);
    var tail := Candidates(challengeId, habits, participants[1..], day);
    if i > 0 {
      CandidatesLayout(challengeId, habits, participants[1..], day, i - 1, j);
      assert (i - 1) * |habits| + j + |habits| == i * |habits| + j;
      assert (head + tail)[i * |habits| + j] == tail[(i - 1) * |habits| + j];
    }
  }

  /**
   * `generateTasksForChallenge`: build one row per participant and habit for the
   * start of `date`, insert them as an unordered batch, swallow the duplicate-key
   * error and let any other error through.
   */
  function GenerateTasks(rows: seq<Task>, challengeId: ChallengeId, habits: seq<HabitEntry>,
                         date: Time, participants: seq<UserId>, fault: Option<int>): (r: Result<seq<Task>, Error>)
    ensures r.Err? <==> Aborts(fault)
    ensures r.Err? ==> r.error == DatabaseError(fault.value)
    ensures r.Ok? ==> rows <= r.value
    ensures r.Ok? && UniqueKeys(rows) ==> UniqueKeys(r.value)
    ensures r.Ok? ==> forall i :: |rows| <= i < |r.value| ==>
              GeneratedRow(r.value[i], challengeId, habits, participants, StartOfDay(date))
    ensures r.Ok? ==>
              KeysOf(r.value) == KeysOf(rows) + ExpectedKeys(challengeId, habits, participants, StartOfDay(date))
  {
    var cands := Candidates(challengeId, habits, participants, StartOfDay(date));
    CandidateKeys(challengeId, habits, participants, StartOfDay(date));
    var w := CreateMany(rows, cands, fault);
    if w.errorCode.Some? && w.errorCode.value != DuplicateKeyCode then Err(DatabaseError(w.errorCode.value))
    else Ok(w.rows)
  }

  /** After a fault-free run every (participant, habit) key for the day is stored exactly once. */
  lemma GenerateCoversOnce(rows: seq<Task>, challengeId: ChallengeId, habits: seq<HabitEntry>,
                           date: Time, participants: seq<UserId>, p: UserId, h: HabitEntry)
    requires UniqueKeys(rows) && p in participants && h in habits
    ensures ExactlyOnce(GenerateTasks(rows, challengeId, habits, date, participants, None).value,
                        Key(challengeId, p, h.habitId, StartOfDay(date)))
  {
    var r := GenerateTasks(rows, challengeId, habits, date, participants, None).value;
    var k := Key(challengeId, p, h.habitId, StartOfDay(date));
    assert k in ExpectedKeys(challengeId, habits, participants, StartOfDay(date));
    UniqueMeansOnce(r, k);
  }

  /** Running generation a second time with the same arguments leaves the store as the first run left it. */
  lemma GenerateIdempotent(rows: seq<Task>, challengeId: ChallengeId, habits: seq<HabitEntry>,
                           date: Time, participants: seq<UserId>)
    ensures var once := GenerateTasks(rows, challengeId, habits, date, participants, None);
            once.Ok? && GenerateTasks(once.value, challengeId, habits, date, participants, None) == once
  {
    var cands := Candidates(challengeId, habits, participants, StartOfDay(date));
    var once := InsertAll(rows, cands);
    InsertAllIdempotent(rows, cands);
    assert CreateMany(once, cands, None).rows == once;
  }

  /** Points a user has earned: the sum of the points of that user's completed tasks. */
  function Earned(rows: seq<Task>, u: UserId): int {
    if rows == [] then 0
    else Earned(rows[..|rows| - 1], u) + Credit(rows[|rows| - 1], u)
  }

  function Credit(t: Task, u: UserId): int {
    if t.userId == u && t.isCompleted then t.points else 0
  }

  lemma {:induction false} EarnedAppend(a: seq<Task>, b: seq<Task>, u: UserId)
    ensures Earned(a + b, u) == Earned(a, u) + Earned(b, u)
    decreases |b|
  {
    if b == [] {
      assert a + b == a;
    } else {
      assert (a + b)[..|a + b| - 1] == a + b[..|b| - 1];
      EarnedAppend(a, b[..|b| - 1], u);
    }
  }

  lemma {:induction false} EarnedOfIncomplete(b: seq<Task>, u: UserId)
    requires forall t :: t in b ==> !t.isCompleted
    ensures Earned(b, u) == 0
    decreases |b|
  {
    if b != [] {
      assert forall t :: t in b[..|b| - 1] ==> t in b;
      EarnedOfIncomplete(b[..|b| - 1], u);
    }
  }

  lemma {:induction false} EarnedUpdate(rows: seq<Task>, i: nat, t: Task, u: UserId)
    requires i < |rows|
    ensures Earned(rows[i := t], u) == Earned(rows, u) - Credit(rows[i], u) + Credit(t, u)
    decreases |rows|
  {
    var r := rows[i := t];
    if i < |rows| - 1 {
      assert r[..|r| - 1] == rows[..|rows| - 1][i := t];
      EarnedUpdate(rows[..|rows| - 1], i, t, u);
    } else {
      assert r[..|r| - 1] == rows[..|rows| - 1];
    }
  }

  /** Every user's total equals what that user's completed tasks are worth: nothing is credited twice or lost. */
  ghost predicate Balanced(rows: seq<Task>, points: Ledger) {
    forall u :: Points(points, u) == Earned(rows, u)
  }

  /** Generation adds only incomplete rows, so it never disturbs the balance. */
  lemma GenerateKeepsBalance(rows: seq<Task>, points: Ledger, challengeId: ChallengeId, habits: seq<HabitEntry>,
                             date: Time, participants: seq<UserId>, fault: Option<int>)
    requires Balanced(rows, points)
    requires GenerateTasks(rows, challengeId, habits, date, participants, fault).Ok?
    ensures Balanced(GenerateTasks(rows, challengeId, habits, date, participants, fault).value, points)
  {
    var r := GenerateTasks(rows, challengeId, habits, date, participants, fault).value;
    IncompleteGrowthBalanced(rows, r, points, challengeId, habits, participants, StartOfDay(date));
  }

  /** Appending generated rows, all of them incomplete, keeps the balance. */
  lemma IncompleteGrowthBalanced(rows: seq<Task>, r: seq<Task>, points: Ledger, challengeId: ChallengeId,
                                 habits: seq<HabitEntry>, participants: seq<UserId>, day: Time)
    requires Balanced(rows, points) && rows <= r
    requires forall i :: |rows| <= i < |r| ==> GeneratedRow(r[i], challengeId, habits, participants, day)
    ensures Balanced(r, points)
  {
    var added := r[|rows|..];
    assert r == rows + added;
    forall t | t in added ensures !t.isCompleted {
      var k :| 0 <= k < |added| && added[k] == t;
      assert r[|rows| + k] == t;
    }
    forall u ensures Points(points, u) == Earned(r, u) {
      EarnedAppend(rows, added, u);
      EarnedOfIncomplete(added, u);
    }
  }

  datatype Completion = Completion(tasks: seq<Task>, points: Ledger, result: Result<Task, Error>)

  /**
   * `completeTask`: refuse a missing or already-completed task; otherwise mark it
   * complete and credit its points to its owner.
   */
  function CompleteTask(rows: seq<Task>, points: Ledger, id: TaskId, now: Time): (c: Completion)
    ensures id >= |rows| ==> c == Completion(rows, points, Err(TaskNotFound))
    ensures id < |rows| && rows[id].isCompleted ==> c == Completion(rows, points, Err(TaskAlreadyCompleted))
    ensures id < |rows| && !rows[id].isCompleted ==>
              && c.result.Ok?
              && |c.tasks| == |rows|
              && c.result.value == c.tasks[id]
              && c.tasks == rows[id := c.result.value]
              && c.result.value.isCompleted && c.result.value.completedAt == Some(now)
              && KeyOf(c.result.value) == KeyOf(rows[id]) && c.result.value.points == rows[id].points
              && Points(c.points, rows[id].userId) == Points(points, rows[id].userId) + rows[id].points
              && forall u :: u != rows[id].userId ==> Points(c.points, u) == Points(points, u)
  {
    match FindById(rows, id)
    case None => Completion(rows, points, Err(TaskNotFound))
    case Some(task) =>
      if task.isCompleted then Completion(rows, points, Err(TaskAlreadyCompleted))
      else
        var (rows', updated) := MarkComplete(rows, id, now);
        assert rows' == rows[id := updated.value];
        Completion(rows', Increment(points, updated.value.userId, updated.value.points), Ok(updated.value))
  }

  /** A second completion of the same task fails and credits nothing more. */
  lemma NoDoubleCredit(rows: seq<Task>, points: Ledger, id: TaskId, now: Time, later: Time)
    requires CompleteTask(rows, points, id, now).result.Ok?
    ensures var first := CompleteTask(rows, points, id, now);
            CompleteTask(first.tasks, first.points, id, later) == Completion(first.tasks, first.points, Err(TaskAlreadyCompleted))
  {
  }

  /** Completion keeps points in balance with completed work, and keeps the unique index and the stamp rule. */
  lemma CompleteKeepsInvariants(rows: seq<Task>, points: Ledger, id: TaskId, now: Time)
    requires Balanced(rows, points) && UniqueKeys(rows)
    requires forall t :: t in rows ==> CompletionStamped(t)
    ensures var c := CompleteTask(rows, points, id, now);
            Balanced(c.tasks, c.points) && UniqueKeys(c.tasks) && forall t :: t in c.tasks ==> CompletionStamped(t)
  {
    var c := CompleteTask(rows, points, id, now);
    if id < |rows| && !rows[id].isCompleted {
      var t := c.result.value;
      forall u ensures Points(c.points, u) == Earned(c.tasks, u) {
        EarnedUpdate(rows, id, t, u);
      }
      MarkCompleteKeepsKeys(rows, id, now);
      forall x | x in c.tasks ensures CompletionStamped(x) {
        var k :| 0 <= k < |c.tasks| && c.tasks[k] == x;
        if k != id {
          assert rows[k] in rows;
        }
      }
    }
  }

  /** The user's task lies on the calendar day of `date`. */
  predicate OnDay(t: Task, userId: UserId, date: Time) {
    t.userId == userId && DayOf(t.date) == DayOf(date)
  }

  /** `getDailyTasks`: the user's tasks of that calendar day, each once, in collection order. */
  function GetDailyTasks(rows: seq<Task>, userId: UserId, date: Time): (r: seq<Task>)
    ensures forall t :: t in r ==> t in rows && OnDay(t, userId, date)
    ensures forall i :: 0 <= i < |rows| && OnDay(rows[i], userId, date) ==> rows[i] in r
    ensures |r| == |FindByUserAndDate(rows, userId, date)|
    ensures forall k :: 0 <= k < |r| ==> r[k] == rows[FindByUserAndDate(rows, userId, date)[k]]
  {
    var ids := FindByUserAndDate(rows, userId, date);
    var r := seq(|ids|, k requires 0 <= k < |ids| => rows[ids[k]]);
    PickedAreOnDay(rows, userId, date, r);
    OnDayArePicked(rows, userId, date, r);
    r
  }

  /** Every task picked by the day's ids is a stored task of that user and day. */
  lemma PickedAreOnDay(rows: seq<Task>, userId: UserId, date: Time, r: seq<Task>)
    requires |r| == |FindByUserAndDate(rows, userId, date)|
    requires forall k :: 0 <= k < |r| ==> r[k] == rows[FindByUserAndDate(rows, userId, date)[k]]
    ensures forall t :: t in r ==> t in rows && OnDay(t, userId, date)
  {
    var ids := FindByUserAndDate(rows, userId, date);
    forall t | t in r ensures t in rows && OnDay(t, userId, date) {
      var k :| 0 <= k < |r| && r[k] == t;
      assert ids[k] in ids;
    }
  }

  /** Every stored task of that user and day is among the picked tasks. */
  lemma OnDayArePicked(rows: seq<Task>, userId: UserId, date: Time, r: seq<Task>)
    requires |r| == |FindByUserAndDate(rows, userId, date)|
    requires forall k :: 0 <= k < |r| ==> r[k] == rows[FindByUserAndDate(rows, userId, date)[k]]
    ensures forall i :: 0 <= i < |rows| && OnDay(rows[i], userId, date) ==> rows[i] in r
  {
    var ids := FindByUserAndDate(rows, userId, date);
    forall i | 0 <= i < |rows| && OnDay(rows[i], userId, date) ensures rows[i] in r {
      assert i in ids;
      var k :| 0 <= k < |ids| && ids[k] == i;
      assert r[k] == rows[i];
    }
  }

  /** `isDailyCompletionDone`: the user has at least one task that day and all of them are completed. */
  function IsDailyCompletionDone(rows: seq<Task>, userId: UserId, date: Time): (r: bool)
    ensures r <==> && (exists i :: 0 <= i < |rows| && OnDay(rows[i], userId, date))
                   && (forall i :: 0 <= i < |rows| && OnDay(rows[i], userId, date) ==> rows[i].isCompleted)
  {
    var ids := FindByUserAndDate(rows, userId, date);
    assert forall k :: 0 <= k < |ids| ==> ids[k] in ids;
    var r := |ids| > 0 && forall k :: 0 <= k < |ids| ==> rows[ids[k]].isCompleted;
    assert |ids| > 0 ==> OnDay(rows[ids[0]], userId, date);
    assert r ==> forall i :: 0 <= i < |rows| && OnDay(rows[i], userId, date) ==> rows[i].isCompleted by {
      if r {
        forall i | 0 <= i < |rows| && OnDay(rows[i], userId, date) ensures rows[i].isCompleted {
          assert i in ids;
          var k :| 0 <= k < |ids| && ids[k] == i;
        }
      }
    }
    assert (exists i :: 0 <= i < |rows| && OnDay(rows[i], userId, date)) ==> |ids| > 0 by {
      if exists i :: 0 <= i < |rows| && OnDay(rows[i], userId, date) {
        var i :| 0 <= i < |rows| && OnDay(rows[i], userId, date);
        assert i in ids;
      }
    }
    r
  }
}

=== FILE: task_summary.dfy ===
/**
 * The display helpers of the task summary page
 * (frontend/app/task-summary/page.tsx; the dashboard page carries an identical
 * copy): the text of a requirement and the colour classes of a habit card.
 */
module TaskSummary {
  import opened Results
  import opened Decimal
  import opened HabitCatalog

  /**
   * The page's own `Requirement` type, as it displays a requirement the backend
   * returns. It mirrors `ChallengeSchema.Requirement`, but its value is taken
   * to be an integer for display.
   */
  datatype Requirement = Requirement(kind: string, value: int)

  /** Whether `s` starts with `p`. */
  predicate HasPrefix(s: string, p: string) {
    |p| <= |s| && s[..|p|] == p
  }

  /** The requirement's text: the value, then the unit word for the known kinds. */
  function FormatRequirement(req: Option<Requirement>): (r: string)
    ensures req.None? <==> r == ""
    ensures req.Some? ==> HasPrefix(r, IntToString(req.value.value))
  {
    match req
    case None => ""
    case Some(Requirement(kind, value)) =>
      var n := IntToString(value);
      if kind == "hours" then n + " hours"
      else if kind == "glasses" then n + " glasses"
      else if kind == "meals" then n + " meal" + (if value > 1 then "s" else "")
      else if kind == "minutes" then n + " minutes"
      else n
  }

  /** The unit word printed after the value, if any. */
  function UnitWord(req: Requirement): string {
    if req.kind in {"hours", "glasses", "minutes"} then req.kind
    else if req.kind == "meals" then (if req.value > 1 then "meals" else "meal")
    else ""
  }

  /**
   * The text splits back into its parts: the leading number reads back as the
   * value, and what follows is a space and the unit word, or nothing at all
   * for kinds without one. Meals read in the singular exactly when the value
   * is at most 1.
   */
  lemma FormatRequirementParts(req: Requirement)
    ensures var r := FormatRequirement(Some(req));
      var n := IntToString(req.value);
      ParseInt(r[..|n|]) == req.value
      && (UnitWord(req) == "" ==> r == n)
      && (UnitWord(req) != "" ==> r[|n|..] == " " + UnitWord(req))
    ensures req.kind == "meals" ==> (UnitWord(req) == "meal" <==> req.value <= 1)
  {
    var n := IntToString(req.value);
    FormatRequirementShape(req);
    IntRoundTrip(req.value);
    assert FormatRequirement(Some(req))[..|n|] == n;
  }

  /** The text is the rendered value followed, when the kind has a unit word, by a space and that word. */
  lemma FormatRequirementShape(req: Requirement)
    ensures FormatRequirement(Some(req))
            == IntToString(req.value) + (if UnitWord(req) == "" then "" else " " + UnitWord(req))
  {
    if req.kind in {"hours", "glasses", "minutes"} {
      PlainUnitShape(req);
    } else if req.kind == "meals" {
      MealsShape(req);
    } else {
      assert FormatRequirement(Some(req)) == IntToString(req.value);
    }
  }

  /** Hours, glasses and minutes print their own name as the unit. */
  lemma PlainUnitShape(req: Requirement)
    requires req.kind in {"hours", "glasses", "minutes"}
    ensures FormatRequirement(Some(req)) == IntToString(req.value) + " " + req.kind
  {
    if req.kind == "hours" {
      HoursShape(req);
    } else if req.kind == "glasses" {
      GlassesShape(req);
    } else {
      MinutesShape(req);
    }
  }

  lemma HoursShape(req: Requirement)
    requires req.kind == "hours"
    ensures FormatRequirement(Some(req)) == IntToString(req.value) + " " + "hours"
  {
    assert " " + "hours" == " hours";
  }

  lemma GlassesShape(req: Requirement)
    requires req.kind == "glasses"
    ensures FormatRequirement(Some(req)) == IntToString(req.value) + " " + "glasses"
  {
    assert " " + "glasses" == " glasses";
  }

  lemma MinutesShape(req: Requirement)
    requires req.kind == "minutes"
    ensures FormatRequirement(Some(req)) == IntToString(req.value) + " " + "minutes"
  {
    assert " " + "minutes" == " minutes";
  }

  /** The meals text: "meal", with an "s" added above 1. */
  lemma MealsShape(req: Requirement)
    requires req.kind == "meals"
    ensures FormatRequirement(Some(req)) == IntToString(req.value) + " " + UnitWord(req)
  {
    var n := IntToString(req.value);
    if req.value > 1 {
      assert n + " meal" + "s" == n + " " + "meals";
    } else {
      assert n + " meal" + "" == n + " " + "meal";
    }
  }

  const DefaultColor: string := "bg-gray-100 border-gray-300"

  /** The card colours, keyed by habit type name. */
  const Colors: map<string, string> := map[
    "sleep" := "bg-pink-100 border-pink-300",
    "hydrate" := "bg-orange-100 border-orange-300",
    "eat" := "bg-blue-100 border-blue-300",
    "breath" := "bg-green-100 border-green-300",
    "read" := "bg-cyan-100 border-cyan-300",
    "exercise" := "bg-yellow-100 border-yellow-300",
    "write" := "bg-purple-100 border-purple-300"
  ]

  /** The colour classes of a habit card: gray exactly for names that are no habit type. */
  function HabitColor(habitType: string): (r: string)
    ensures habitType in Colors ==> r == Colors[habitType]
    ensures r == DefaultColor <==> forall t :: TypeName(t) != habitType
  {
    ColorKeysAreTypes(habitType);
    if habitType in Colors then Colors[habitType] else DefaultColor
  }

  /** Every catalog habit type gets its own colour. */
  lemma CatalogColorsDistinct(s: HabitType, t: HabitType)
    ensures s != t ==> HabitColor(TypeName(s)) != HabitColor(TypeName(t))
  {
  }

  /** The colour table covers exactly the catalog's habit types. */
  lemma ColorKeysAreTypes(name: string)
    ensures name in Colors <==> exists t :: TypeName(t) == name
    ensures name in Colors ==> Colors[name] != DefaultColor
  {
    if name in Colors {
      var t :| t in {Sleep, Hydrate, Eat, Breath, Read, Exercise, Write} && TypeName(t) == name;
    }
  }
}

=== FILE: tasks_scheduler.dfy ===
/**
 * The nightly job (backend/src/modules/task/schedulers/task.schedular.ts): one
 * firing runs the daily batch for the current instant and swallows any failure.
 * The cron timing and the logging are not modelled.
 */
module TasksScheduler {
  import opened Clock
  import opened ChallengeSchema
  import opened ChallengeService

  /** One firing: whatever the batch did before a failure stays, and the failure itself goes no further. */
  function HandleCron(st: State, now: Time, faults: map<ChallengeId, int>): (r: State)
    ensures r.challenges == st.challenges && r.points == st.points
    ensures st.tasks <= r.tasks
    ensures Inv(st) ==> Inv(r)
  {
    var step := GenerateDailyTasks(st, now, faults);
    assert Inv(st) ==> Inv(step.state) by {
      if Inv(st) {
        DailyKeepsInv(st, now, faults);
      }
    }
    step.state
  }
}

=== FILE: user_points.dfy ===
/**
 * Users' accumulated points. The credit operation the task service calls is not
 * defined in the user service, so points are an additive ledger keyed by user.
 */
module UserPoints {
  import opened ChallengeSchema

  type Ledger = map<UserId, int>

  /** A user's total; a user never credited has 0. */
  function Points(m: Ledger, u: UserId): int {
    if u in m then m[u] else 0
  }

  /** `incrementPoints`: add `amount` to one user's total and leave everyone else's alone. */
  function Increment(m: Ledger, u: UserId, amount: int): (r: Ledger)
    ensures Points(r, u) == Points(m, u) + amount
    ensures forall v :: v != u ==> Points(r, v) == Points(m, v)
  {
    m[u := Points(m, u) + amount]
  }
}
